=== FILE: README.md ===
# goque core in Dafny

This project models the ordered-collection engine of goque. goque keeps a
FIFO queue, a LIFO stack and a 256-level priority queue on top of a sorted
key-value store (LevelDB). The model covers four parts:

- The key codec. A uint64 sequence number becomes an 8-byte big-endian key
  (`idToKey`), and `keyToID` reads it back. The byte order of the keys is
  the numeric order of the IDs.
- The queue and the stack. Each keeps a `(head, tail]` window of live IDs
  over the store. The model has their operations and their error paths.
- The priority queue. It has 256 such windows, one per priority byte. Each
  window's keys carry a two-byte prefix: the level, then `:`. A cursor,
  `curLevel`, names the level that `Dequeue` serves, under ascending or
  descending order.
- Reopening. An ordered listing of the store rebuilds every window.

The store is a finite map from byte strings to byte strings (`Store.DB`).
Each store call takes a `Fault` argument that decides whether the call goes
through. A failed call carries the error the store would report. An
iterator is a strictly sorted list of keys, together with the iterator's
`Fault`. uint64 arithmetic wraps explicitly (`Add64`, `Sub64`). Bytes are a
`u8` newtype.

Files:

- `results.dfy`: error kinds, `Option`, `Result` and `Fault`.
- `codec.dfy`: item.go.
- `store.dfy`: the store interface.
- `keyspace.dfy`: how a window of IDs under a key prefix sits in the store,
  shared by all three collections.
- `queue.dfy`, `stack.dfy` and `pqueue.dfy`: the three collections.

For each collection there are three views:

- `Valid`: the store holds exactly the keys of the live IDs.
- `Contents`: the stored values in ID order. The priority queue has one
  such sequence per level.
- `Length`: as the source computes it, with wrap-around.

Each operation has lemmas that relate these views before and after the
operation.

The priority queue's `Dequeue` rescans only levels 0 to 254 (`i < 255`).
`PriorityQueues.SelectLevelIsBest` proves that no item is lost by stopping
there. It relies on the invariant `CurrentIsBest`: no level more important
than `curLevel` holds items.

- Under ascending order, level 255 is the starting value of the scan, so it
  is still served.
- Under descending order, level 255 is empty whenever a rescan happens.

`ShortRescanNeedsInvariant` shows a state without the invariant that does
lose an item. `Enqueue` and init keep the invariant, so such a state cannot
arise.

The model follows pqueue.go's code at these points, where it differs from what the queue and stack types do or from what a priority queue is usually expected to do:

- On a successful `Enqueue`, the code moves `curLevel` only when the new
  level is more important (pqueue.go:93). It does not also move it when the
  current level is empty.
- `Dequeue` rescans levels 0 to 254, not all 256 (pqueue.go:112). As shown
  above, the difference is harmless under the invariant.
- The priority queue's `Enqueue` and `Dequeue` do not check `isOpen`. After
  `Close`, the store handle reports that it is closed (`StoreClosed`), not
  `DBClosed`. `Close` keeps the levels, so `Length` is unchanged.
- pqueue.go has no `DequeueByPriority`, `Peek`,
  `PeekByPriorityID`, `PeekByOffset` or `Update`. The model has none either.

## Model

| member | source | states |
|---|---|---|
| Codec.Wrap64 | queue.go:272-274 | uint64 `+` and `-` are addition and subtraction modulo 2^64, and each undoes the other |
| Codec.IdToKeyIsEncodeBE | item.go:90-94 | idToKey writes the ID as 8 bytes, most significant byte first |
| Codec.KeyToIdOfIdToKey | item.go:96-99 | keyToID(idToKey(id)) == id for every uint64 |
| Codec.IdToKey | item.go:90-94 | the key has 8 bytes; IdToKeyIsEncodeBE states that they are the big-endian encoding of the ID |
| Codec.KeyToId | item.go:96-99 | for an 8-byte key k, idToKey(keyToID(k)) == k, so keyToID undoes idToKey on every key it can produce |
| Codec.CodecFacts | item.go:90-99 | for all IDs and 8-byte keys at once: both round trips hold and idToKey is injective |
| Codec.IdToKeyOrder | item.go:90-94 | a < b exactly when idToKey(a) sorts before idToKey(b) byte-wise, so the store's key order is ID order |
| Codec.DecodeEncode | item.go:90-99 | decoding a big-endian encoding of any width gives the number back |
| Codec.EncodeDecode | item.go:90-99 | encoding a decoded byte string at its own width gives the bytes back |
| Codec.EncodeOrder | item.go:90-94 | at a fixed width, big-endian encodings compare byte-wise as the numbers compare |
| Codec.IdToKeyOfOne | item.go:90-94 | the first ID, 1, is the key 00 00 00 00 00 00 00 01 |
| Codec.Item.ToString | item.go:18-20 | the string has one character per value byte and converts back to the same bytes |
| Codec.PriorityItem.ToString | item.go:58-60 | the same for a priority item |
| Codec.StringRoundTrip | item.go:18-20 | a string of byte-valued characters survives the trip through bytes and back |
| Store.Get | queue.go:321 | a read succeeds exactly when the handle is open, the call goes through and the key is stored, and then it returns the stored value; otherwise StoreClosed on a closed handle, Io with the store's code on a failed call, NotFound for a missing key |
| Store.Put | queue.go:89 | a write succeeds exactly when the handle is open and the call goes through, and then the key maps to the new value; otherwise StoreClosed or Io with the store's code |
| Store.Delete | queue.go:154 | a delete succeeds exactly when the handle is open and the call goes through, and then the key is gone; otherwise StoreClosed or Io with the store's code |
| Keyspace.KeyForInRange | queue.go:314 | the key of id under a prefix lies in the window (lo, hi] exactly when lo < id <= hi |
| Keyspace.KeyForInjective | item.go:90-94 | two prefixed keys are equal exactly when the prefixes and the IDs are |
| Keyspace.ListingEnds | queue.go:329-345 | a sorted listing of the window's keys is empty exactly when the window is, and its first and last keys are those of lo+1 and hi |
| Keyspace.CountKeys | queue.go:272-274 | a store holding exactly the window's keys has tail - head entries |
| Queues.GetItemByID | queue.go:310-326 | Empty on an empty queue, OutOfBounds exactly outside (head, tail], otherwise the value stored under idToKey(id) or the store's error unchanged (StoreClosed, Io with its code, NotFound) |
| Queues.Enqueue | queue.go:72-97 | DBClosed when closed; succeeds exactly when open and the write goes through, with ID tail+1 and key idToKey(tail+1); a failed write returns Io with the store's code and changes nothing |
| Queues.Dequeue | queue.go:138-162 | DBClosed when closed, Empty on an empty queue, getItemByID's error passed through unchanged, Io with the store's code on a failed delete, a failure changes nothing, success removes head+1 |
| Queues.Peek | queue.go:165-175 | DBClosed when closed, otherwise the read of head+1 |
| Queues.PeekByOffset | queue.go:179-189 | DBClosed when closed, otherwise exactly getItemByID at the wrapping ID head+offset+1 (so Empty on an empty queue) |
| Queues.PeekByID | queue.go:192-202 | DBClosed when closed, otherwise the read of the given ID |
| Queues.Update | queue.go:205-232 | DBClosed when closed, OutOfBounds exactly outside (head, tail], succeeds exactly inside it when the write goes through, and a failed write inside it returns Io with the store's code |
| Queues.Close | queue.go:277-298 | a no-op when closed; a failed store close returns Io with the store's code and changes nothing; a successful one resets head and tail to 0 |
| Queues.Init | queue.go:329-345 | head is the first listed ID minus one and tail the last listed ID; an empty or failed listing leaves the counters alone, and a failed one returns Io with the iterator's code |
| Queues.Open | queue.go:39-69 | a store failure, a failing type check or a foreign type marker leaves the queue closed with that error (the store's or the check's code passed through, IncompatibleType for a foreign marker), and it is open exactly when both succeed, in which case the result is init's on an open queue at (0, 0), its error included |
| Queues.Length | queue.go:272-274 | head plus Length is tail in uint64, and Length is tail - head exactly when head <= tail |
| Queues.StoredKeys | queue.go:272-274 | a valid open queue stores exactly the keys of head+1..tail, and Length is the number of stored entries |
| Queues.GetItemByIDReadsContents | queue.go:310-326 | inside the window the read fails only when the store does, and returns the value at that position of the contents |
| Queues.EnqueueAppends | queue.go:72-97 | Enqueue keeps the invariant and appends the value at the back of the contents |
| Queues.DequeueTakesOldest | queue.go:138-162 | Dequeue keeps the invariant; on an open non-empty queue it fails only when the store does; success returns the first value and drops it from the contents |
| Queues.PeekShowsOldest | queue.go:165-175 | Peek returns Empty on an empty queue and otherwise the first value of the contents |
| Queues.PeekByOffsetBounds | queue.go:179-189 | on an empty queue Empty; otherwise OutOfBounds exactly when offset >= Length, even where head+offset+1 wraps, and in bounds the value at that offset |
| Queues.UpdateOverwrites | queue.go:205-232 | Update keeps the invariant and the counters, and success replaces exactly one position of the contents |
| Queues.UpdateAfterDequeue | queue.go:205-232 | after a Dequeue, Update rejects the ID just handed out and accepts the next one |
| Queues.CloseThenUse | queue.go:277-298 | after Close, Length is 0, Enqueue and Dequeue report DBClosed, and a second Close changes nothing |
| Queues.OpenRebuilds | queue.go:329-345 | reopening a store that holds the keys of (lo, hi] gives a valid open queue with the same contents and Length |
| Stacks.GetItemByID | stack.go:310-326 | Empty on an empty stack, OutOfBounds exactly outside (tail, head], otherwise the value stored under idToKey(id) or the store's error unchanged (StoreClosed, Io with its code, NotFound) |
| Stacks.Push | stack.go:72-97 | DBClosed when closed; succeeds exactly when open and the write goes through, with ID head+1; a failed write returns Io with the store's code and changes nothing |
| Stacks.Pop | stack.go:138-162 | DBClosed when closed, Empty on an empty stack, getItemByID's error passed through unchanged, Io with the store's code on a failed delete, a failure changes nothing, success removes head |
| Stacks.Peek | stack.go:165-175 | DBClosed when closed, otherwise the read of head |
| Stacks.PeekByOffset | stack.go:179-189 | DBClosed when closed, otherwise exactly getItemByID at the wrapping ID head-offset (so Empty on an empty stack) |
| Stacks.PeekByID | stack.go:192-202 | DBClosed when closed, otherwise the read of the given ID |
| Stacks.Update | stack.go:205-232 | DBClosed when closed, OutOfBounds exactly outside (tail, head], succeeds exactly inside it when the write goes through, and a failed write inside it returns Io with the store's code |
| Stacks.Close | stack.go:277-298 | a no-op when closed; a failed store close returns Io with the store's code and changes nothing; a successful one resets head and tail to 0 |
| Stacks.Init | stack.go:329-345 | head is the last listed ID and tail the first listed ID minus one; an empty or failed listing leaves the counters alone, and a failed one returns Io with the iterator's code |
| Stacks.Open | stack.go:39-69 | a store failure, a failing type check or a foreign type marker leaves the stack closed with that error (the store's or the check's code passed through, IncompatibleType for a foreign marker), and it is open exactly when both succeed, in which case the result is init's on an open stack at (0, 0), its error included |
| Stacks.Length | stack.go:272-274 | tail plus Length is head in uint64, and Length is head - tail exactly when tail <= head |
| Stacks.StoredKeys | stack.go:272-274 | a valid open stack stores exactly the keys of tail+1..head, and Length is the number of stored entries |
| Stacks.GetItemByIDReadsContents | stack.go:310-326 | inside the window the read fails only when the store does, and returns the value at that position of the contents |
| Stacks.PushAppends | stack.go:72-97 | Push keeps the invariant and puts the value on top, at the end of the contents |
| Stacks.PopTakesNewest | stack.go:138-162 | Pop keeps the invariant; on an open non-empty stack it fails only when the store does; success returns the last value and drops it |
| Stacks.PeekShowsNewest | stack.go:165-175 | Peek returns Empty on an empty stack and otherwise the last value of the contents |
| Stacks.PeekByOffsetBounds | stack.go:179-189 | on an empty stack Empty; otherwise OutOfBounds exactly when offset >= Length, even where head-offset wraps, and in bounds the value offset places below the top |
| Stacks.UpdateOverwrites | stack.go:205-232 | Update keeps the invariant and the counters, and success replaces exactly one position of the contents |
| Stacks.UpdateAfterPop | stack.go:205-232 | after a Pop, Update rejects the ID just handed out and accepts the one below |
| Stacks.PushAfterPopReusesId | stack.go:72-97 | a Push right after a Pop hands out the popped ID again |
| Stacks.CloseThenUse | stack.go:277-298 | after Close, Length is 0, Push and Pop report DBClosed, and a second Close changes nothing |
| Stacks.OpenRebuilds | stack.go:329-345 | reopening a store that holds the keys of (lo, hi] gives a valid open stack with the same contents and Length |
| PriorityQueues.GeneratePrefix | pqueue.go:252-258 | the prefix is two bytes, the level and then ':' |
| PriorityQueues.GenerateKey | pqueue.go:260-266 | the key has ten bytes, starts with the level's prefix, and keyToID of the rest gives the ID back |
| PriorityQueues.GenerateKeyParts | pqueue.go:260-266 | a level key is the prefix followed by idToKey(id), and keyToID of its last 8 bytes is id |
| PriorityQueues.GenerateKeyInjective | pqueue.go:260-266 | two level keys are equal exactly when level and ID are |
| PriorityQueues.GenerateKeyOfFirst | pqueue.go:260-266 | the first key of level 0 is 00 3A 00 00 00 00 00 00 00 01 |
| PriorityQueues.GenerateKeyOrder | pqueue.go:260-266 | level keys sort by level first and by ID within a level, so each level is one contiguous ID-ordered run |
| PriorityQueues.ResetLevel | pqueue.go:182-188 | every other level is more important than the reset level |
| PriorityQueues.Scan | pqueue.go:112-116 | the result is the most important non-empty level of the scanned range when one beats the start, and the start otherwise |
| PriorityQueues.GetItemByPriorityID | pqueue.go:191-206 | Empty on an empty level, OutOfBounds exactly outside (head, tail]; no error exactly when in bounds and the read succeeds; for an ID in bounds the item with that ID, priority and key always comes back: with the stored value when the read succeeds and an empty value when it fails, and the error is the store's unchanged (StoreClosed, Io with its code, NotFound) |
| PriorityQueues.Dequeue | pqueue.go:102-139 | curLevel becomes the selected level on every path, Empty returns no item, and any error leaves everything else unchanged (DequeueFailureKeepsItem states the item returned with any other error) |
| PriorityQueues.Enqueue | pqueue.go:76-99 | the item gets ID tail+1 and its key even on failure; StoreClosed on a closed handle and Io with the store's code on a failed write; success exactly when the write goes through, then the level's tail and the store change and curLevel moves exactly when the level is more important |
| PriorityQueues.Close | pqueue.go:152-160 | the queue ends closed with all counters kept |
| PriorityQueues.FirstFailure | pqueue.go:240-242 | finds the first level whose iterator failed, or none |
| PriorityQueues.Open | pqueue.go:53-73 | a store failure is reported; success exactly when every level's iterator succeeds, giving an open queue over the same store |
| PriorityQueues.KeyStored | pqueue.go:191-206 | in a valid queue a level key is stored exactly when its ID lies in that level's window |
| PriorityQueues.MoreImportantIsStrict | pqueue.go:168-178 | cmpAsc and cmpDesc order the levels strictly and totally: irreflexive, one of two distinct levels beats the other, transitive |
| PriorityQueues.SelectLevel | pqueue.go:105-121 | a non-empty curLevel is kept; if the level settled on is empty then so is every level the 0..254 rescan visits (SelectLevelIsBest gives the full statement) |
| PriorityQueues.SelectLevelIsBest | pqueue.go:106-122 | the level Dequeue settles on is empty exactly when all levels are, and otherwise holds items with no more important level holding any, although the rescan stops at 254 |
| PriorityQueues.ShortRescanNeedsInvariant | pqueue.go:112 | without the curLevel invariant, a DESC queue holding only an item in level 255 reports Empty |
| PriorityQueues.DequeueFailureReports | pqueue.go:123-133 | such an error is the store's own: StoreClosed, Io with the read's code, NotFound, or Io with the delete's code when only the delete failed |
| PriorityQueues.DequeueFailureKeepsItem | pqueue.go:123-133 | every error but Empty comes with the head+1 item of the selected level: its stored value and the delete's Io code when only the delete failed, an empty value when the read failed |
| PriorityQueues.DequeueOutcome | pqueue.go:102-139 | Empty exactly when every level is empty; success exactly when the handle is open, both store calls go through and some level holds items |
| PriorityQueues.DequeueKeepsValid | pqueue.go:102-139 | every path through Dequeue keeps the invariant |
| PriorityQueues.DequeueServesBest | pqueue.go:102-139 | a successful Dequeue serves the most important level with items, which becomes curLevel |
| PriorityQueues.DequeueTakesOldest | pqueue.go:124-138 | a successful Dequeue returns ID head+1 and the level's first value, and removes exactly that value from that level |
| PriorityQueues.EnqueueKeepsValid | pqueue.go:76-99 | Enqueue keeps the invariant, including that curLevel is the most important level with items |
| PriorityQueues.EnqueueAppends | pqueue.go:84-91 | a successful Enqueue appends the value to its level's contents and leaves every other level alone |
| PriorityQueues.EnqueueThenDequeue | pqueue.go:92-95 | after an Enqueue into a more important level, the next successful Dequeue returns that item |
| PriorityQueues.SumLengths | pqueue.go:142-149 | the uint64 sum of the first n level lengths is their exact total modulo 2^64 |
| PriorityQueues.Length | pqueue.go:142-149 | Length is the exact item count of all 256 levels modulo 2^64 |
| PriorityQueues.TotalUpdate | pqueue.go:142-149 | changing one level changes the exact count by that level's change in length |
| PriorityQueues.LevelLength | pqueue.go:34-36 | head plus the length is tail in uint64, and the length is tail - head exactly when head <= tail |
| PriorityQueues.TotalZero | pqueue.go:34-36 | the exact count is zero exactly when every level is empty |
| PriorityQueues.LengthCounts | pqueue.go:142-149 | Length is the count modulo 2^64, and the count is zero exactly when all levels are empty |
| PriorityQueues.LengthAfterDequeue | pqueue.go:102-149 | a successful Dequeue lowers the count by one and Length by one in uint64 |
| PriorityQueues.LengthAfterEnqueue | pqueue.go:76-99 | a successful Enqueue raises the count by one and Length by one in uint64 |
| PriorityQueues.CloseThenUse | pqueue.go:152-160 | Close is idempotent, keeps Length and the contents, and afterwards Enqueue fails with StoreClosed and Dequeue with Empty or StoreClosed |
| PriorityQueues.Init | pqueue.go:209-249 | fails exactly when some iterator fails, with the Io code of the first one; otherwise each level comes from its own listing and curLevel is the reset level or a listed level that no listed level beats |
| PriorityQueues.RebuildLevel | pqueue.go:225-238 | from a sorted listing of one level's window, init rebuilds that window when it holds items and (0, 0) when it is empty |
| PriorityQueues.InitRebuilds | pqueue.go:209-249 | with every level listed correctly, init succeeds, rebuilds every window and points curLevel at the most important level with items |
| PriorityQueues.RestartedAgrees | pqueue.go:220-238 | restarting the empty windows at (0, 0) changes neither the live keys nor any level's contents |
| PriorityQueues.OpenRebuilds | pqueue.go:53-73 | reopening a store that holds exactly the live keys gives a valid open queue with the same per-level contents |

## Left out

- LevelDB itself: files, compaction, snapshots and recovery. The store is a map, each call takes a `Fault` argument, and an iterator is a sorted key listing passed in as a parameter.
- The read/write mutex around every operation. The model is sequential.
- The gob and JSON helpers (`EnqueueObject`, `ToObject`, `ToObjectFromJSON` and the like) and the `...String` wrappers. They only convert values before or after the modelled calls. `ToString` itself is modelled.
- `Drop`, `OpenQueue`/`RecoverQueue` and their stack twins: each is a filesystem call plus an operation that is modelled. Recovery differs from opening only inside LevelDB.
- The internals of `checkGoqueType`. Its outcome is the `TypeCheck` parameter of `Open`.
- The prefix queue and the command-line tool. They are not part of this model.
- PriorityQueues.Open: when the iterator of level i fails, the Go queue has levels 0..i-1 initialised and levels i..255 left nil, so Length, Enqueue into those levels and any Dequeue that reaches them panic; the model returns only the error and not that partial queue.
- PriorityQueues.Open: an order value other than ASC or DESC is not modelled.
- Queues.EnqueueAppends: requires tail < 2^64-1, because the ID would wrap to 0 and the window would become (head, 0]. The same bound applies to Stacks.PushAppends, PriorityQueues.EnqueueKeepsValid, PriorityQueues.EnqueueAppends, PriorityQueues.EnqueueThenDequeue and PriorityQueues.LengthAfterEnqueue.
- Codec.KeyToId: requires at least 8 bytes. Go panics on a shorter key, and every key the store lists for a collection has that length.
- PriorityQueues.OpenRebuilds: relates the rebuilt queue to the old one only when each listing holds exactly its level's live keys. That is the store's guarantee after a clean close.

=== FILE: codec.dfy ===
/** The key codec of item.go: 64-bit sequence numbers as 8-byte big-endian
    keys, and the records handed back to callers. */
module Codec {

  const TWO64: int := 0x1_0000_0000_0000_0000
  const MAX64: int := TWO64 - 1

  /** Go's uint64 and uint8, as integer ranges; wrap-around is written out. */
  type u64 = x: int | 0 <= x < 0x1_0000_0000_0000_0000
  newtype u8 = x: int | 0 <= x < 256
  type Bytes = seq<u8>

  /** `a + b` on uint64: the sum, less 2^64 when it does not fit. */
  function Add64(a: u64, b: u64): u64
  {
    if a + b < TWO64 then a + b else a + b - TWO64
  }

  /** `a - b` on uint64: the difference, plus 2^64 when it is negative. */
  function Sub64(a: u64, b: u64): u64
  {
    if b <= a then a - b else a - b + TWO64
  }

  /** Both are arithmetic modulo 2^64, and they undo each other. */
  lemma Wrap64(a: u64, b: u64)
    ensures Add64(a, b) == (a + b) % TWO64
    ensures Sub64(a, b) == (a - b) % TWO64
    ensures Sub64(Add64(a, b), b) == a
    ensures Add64(Sub64(a, b), b) == a
  {
  }

  function Pow256(width: nat): (p: nat)
    ensures p >= 1
  {
    if width == 0 then 1 else 256 * Pow256(width - 1)
  }

  lemma Pow256Eight()
    ensures Pow256(8) == TWO64
  {
    assert Pow256(1) == 256;
    assert Pow256(2) == 0x1_0000;
    assert Pow256(3) == 0x100_0000;
    assert Pow256(4) == 0x1_0000_0000;
    assert Pow256(5) == 0x100_0000_0000;
    assert Pow256(6) == 0x1_0000_0000_0000;
    assert Pow256(7) == 0x100_0000_0000_0000;
  }

  /** Big-endian encoding of `n` in `width` bytes: the most significant byte
      comes first, so the last byte is `n % 256`. */
  function EncodeBE(n: nat, width: nat): (s: Bytes)
    requires n < Pow256(width)
    ensures |s| == width
    decreases width
  {
    if width == 0 then [] else EncodeBE(n / 256, width - 1) + [(n % 256) as u8]
  }

  /** Reads a big-endian number; the result fits in `|s|` bytes. */
  function DecodeBE(s: Bytes): (n: nat)
    ensures n < Pow256(|s|)
  {
    if |s| == 0 then 0 else DecodeBE(s[..|s| - 1]) * 256 + s[|s| - 1] as int
  }

  lemma SplitLow(n: nat)
    ensures (n / 256) * 256 + n % 256 == n
  {
  }

  /** Comparing two numbers is comparing their high parts, then their low bytes. */
  lemma CompareSplit(n: nat, m: nat)
    ensures n < m <==> n / 256 < m / 256 || (n / 256 == m / 256 && n % 256 < m % 256)
  {
  }

  lemma EncodeFront(n: nat, width: nat)
    requires 0 < width && n < Pow256(width)
    ensures EncodeBE(n, width)[..width - 1] == EncodeBE(n / 256, width - 1)
    ensures EncodeBE(n, width)[width - 1] as int == n % 256
  {
  }

  lemma {:induction false} DecodeEncode(n: nat, width: nat)
    requires n < Pow256(width)
    ensures DecodeBE(EncodeBE(n, width)) == n
    decreases width
  {
    if width > 0 {
      var s := EncodeBE(n, width);
      var front := EncodeBE(n / 256, width - 1);
      EncodeFront(n, width);
      DecodeEncode(n / 256, width - 1);
      assert DecodeBE(s) == DecodeBE(front) * 256 + n % 256;
      SplitLow(n);
    }
  }

  lemma {:induction false} EncodeDecode(s: Bytes)
    ensures EncodeBE(DecodeBE(s), |s|) == s
  {
    if |s| > 0 {
      var front := s[..|s| - 1];
      EncodeDecode(front);
      var n := DecodeBE(s);
      assert n / 256 == DecodeBE(front);
      assert n % 256 == s[|s| - 1] as int;
      assert s == front + [s[|s| - 1]];
    }
  }

  /** Byte-lexicographic order, the order in which the store iterates keys. */
  predicate LexLess(a: Bytes, b: Bytes)
  {
    if |a| == 0 then |b| > 0
    else if |b| == 0 then false
    else a[0] < b[0] || (a[0] == b[0] && LexLess(a[1..], b[1..]))
  }

  lemma {:induction false} LexLessSnoc(a: Bytes, b: Bytes, x: u8, y: u8)
    requires |a| == |b|
    ensures LexLess(a + [x], b + [y]) <==> LexLess(a, b) || (a == b && x < y)
  {
    if |a| > 0 {
      assert (a + [x])[1..] == a[1..] + [x];
      assert (b + [y])[1..] == b[1..] + [y];
      LexLessSnoc(a[1..], b[1..], x, y);
      assert a == b <==> a[0] == b[0] && a[1..] == b[1..];
    }
  }

  /** A common prefix does not change how two keys compare. */
  lemma {:induction false} LexLessPrefix(p: Bytes, a: Bytes, b: Bytes)
    ensures LexLess(p + a, p + b) <==> LexLess(a, b)
  {
    if |p| > 0 {
      assert (p + a)[1..] == p[1..] + a;
      assert (p + b)[1..] == p[1..] + b;
      LexLessPrefix(p[1..], a, b);
    } else {
      assert p + a == a && p + b == b;
    }
  }

  /** Big-endian is what makes numeric order and key order agree. */
  lemma {:induction false} EncodeOrder(n: nat, m: nat, width: nat)
    requires n < Pow256(width) && m < Pow256(width)
    ensures n < m <==> LexLess(EncodeBE(n, width), EncodeBE(m, width))
    decreases width
  {
    if width > 0 {
      var hn, hm := EncodeBE(n / 256, width - 1), EncodeBE(m / 256, width - 1);
      assert EncodeBE(n, width) == hn + [(n % 256) as u8];
      assert EncodeBE(m, width) == hm + [(m % 256) as u8];
      LexLessSnoc(hn, hm, (n % 256) as u8, (m % 256) as u8);
      EncodeOrder(n / 256, m / 256, width - 1);
      CompareSplit(n, m);
      DecodeEncode(n / 256, width - 1);
      DecodeEncode(m / 256, width - 1);
      assert hn == hm <==> n / 256 == m / 256;
    }
  }

  /** Base-256 digit k of n, counting from the least significant: Go's
      byte(n >> (8 * k)). */
  function Digit(n: nat, k: nat): (d: u8)
  {
    if k == 0 then (n % 256) as u8 else Digit(n / 256, k - 1)
  }

  /** Byte i of a big-endian encoding is digit width-1-i. */
  lemma {:induction false} EncodeDigit(n: nat, width: nat, i: nat)
    requires n < Pow256(width) && i < width
    ensures EncodeBE(n, width)[i] == Digit(n, width - 1 - i)
    decreases width
  {
    EncodeFront(n, width);
    if i < width - 1 {
      EncodeDigit(n / 256, width - 1, i);
    }
  }

  /** idToKey (binary.BigEndian.PutUint64): byte i of the key is digit 7-i
      of the ID, so the most significant byte comes first. */
  function IdToKey(id: u64): (key: Bytes)
    ensures |key| == 8
  {
    seq(8, i requires 0 <= i < 8 => Digit(id, 7 - i))
  }

  /** idToKey is the 8-byte instance of the general big-endian encoding. */
  lemma IdToKeyIsEncodeBE(id: u64)
    ensures Pow256(8) == TWO64
    ensures IdToKey(id) == EncodeBE(id, 8)
  {
    Pow256Eight();
    forall i | 0 <= i < 8
      ensures IdToKey(id)[i] == EncodeBE(id, 8)[i]
    {
      EncodeDigit(id, 8, i);
    }
  }

  /** keyToID: reads the first 8 bytes of a key as a big-endian number; Go's
      binary.BigEndian.Uint64 panics on a shorter slice. */
  function KeyToId(key: Bytes): (id: u64)
    requires |key| >= 8
    ensures |key| == 8 ==> IdToKey(id) == key
  {
    Pow256Eight();
    IdToKeyIsEncodeBE(DecodeBE(key[..8]));
    EncodeDecode(key[..8]);
    DecodeBE(key[..8])
  }

  lemma KeyToIdOfIdToKey(id: u64)
    ensures KeyToId(IdToKey(id)) == id
  {
    IdToKeyIsEncodeBE(id);
    assert IdToKey(id)[..8] == IdToKey(id);
    DecodeEncode(id, 8);
  }

  /** The round trips and the order correspondence, for every ID and key. */
  lemma CodecFacts()
    ensures forall id: u64 :: KeyToId(IdToKey(id)) == id
    ensures forall key: Bytes | |key| == 8 :: IdToKey(KeyToId(key)) == key
    ensures forall a: u64, b: u64 :: IdToKey(a) == IdToKey(b) ==> a == b
  {
    forall id: u64 ensures KeyToId(IdToKey(id)) == id {
      KeyToIdOfIdToKey(id);
    }
  }

  /** a < b exactly when idToKey(a) sorts before idToKey(b). */
  lemma IdToKeyOrder(a: u64, b: u64)
    ensures a < b <==> LexLess(IdToKey(a), IdToKey(b))
  {
    IdToKeyIsEncodeBE(a);
    IdToKeyIsEncodeBE(b);
    EncodeOrder(a, b, 8);
  }

  /** A value below 256 encodes as zero bytes followed by that value. */
  lemma {:induction false} EncodeSmall(n: nat, width: nat)
    requires n < 256 && 1 <= width
    ensures n < Pow256(width)
    ensures EncodeBE(n, width) == seq(width - 1, _ => 0 as u8) + [n as u8]
  {
    if width > 1 {
      EncodeSmall(0, width - 1);
    }
  }

  /** Most significant byte first: the key of 1 ends in 1. */
  lemma IdToKeyOfOne()
    ensures IdToKey(1) == [0, 0, 0, 0, 0, 0, 0, 1]
  {
    IdToKeyIsEncodeBE(1);
    EncodeSmall(1, 8);
  }

  /** Go's string(b) for a byte slice: one character per byte. */
  function BytesToString(b: Bytes): (s: string)
    ensures |s| == |b|
    ensures forall i :: 0 <= i < |s| ==> s[i] as int == b[i] as int
  {
    seq(|b|, i requires 0 <= i < |b| => b[i] as char)
  }

  /** A Go string holds bytes; as Dafny characters they stay below 256. */
  predicate IsByteString(s: string)
  {
    forall i :: 0 <= i < |s| ==> s[i] as int < 256
  }

  /** Go's []byte(s), as used by EnqueueString, PushString and UpdateString. */
  function StringToBytes(s: string): (b: Bytes)
    requires IsByteString(s)
    ensures |b| == |s|
    ensures forall i :: 0 <= i < |b| ==> b[i] as int == s[i] as int
  {
    seq(|s|, i requires 0 <= i < |s| => s[i] as u8)
  }

  /** An entry of a queue or stack. */
  datatype Item = Item(id: u64, key: Bytes, value: Bytes)
  {
    function ToString(): (s: string)
      ensures IsByteString(s)
      ensures StringToBytes(s) == value
    {
      BytesToString(value)
    }
  }

  /** An entry of a priority queue. */
  datatype PriorityItem = PriorityItem(id: u64, priority: u8, key: Bytes, value: Bytes)
  {
    function ToString(): (s: string)
      ensures IsByteString(s)
      ensures StringToBytes(s) == value
    {
      BytesToString(value)
    }
  }

  /** A byte-valued string survives the trip through []byte and back. */
  lemma StringRoundTrip(s: string)
    requires IsByteString(s)
    ensures BytesToString(StringToBytes(s)) == s
  {
  }
}

=== FILE: keyspace.dfy ===
/** How a run of sequence numbers (head, tail] sits in the store: the key of
    each ID under a fixed prefix, the values read back in ID order, and what
    an ordered iterator sees first and last. The queue and the stack use the
    empty prefix; each priority level uses its own two-byte prefix. */
module Keyspace {
  import opened Codec
  import opened Store

  /** The key of `id` under `prefix`. */
  function KeyFor(prefix: Bytes, id: u64): (k: Bytes)
    ensures |k| == |prefix| + 8
  {
    prefix + IdToKey(id)
  }

  /** `k` is the key, under `prefix`, of an ID in (lo, hi]. */
  predicate InRange(prefix: Bytes, k: Bytes, lo: u64, hi: u64)
  {
    && |k| == |prefix| + 8
    && k[..|prefix|] == prefix
    && lo < KeyToId(k[|prefix|..]) <= hi
  }

  /** The store holds exactly the keys of the IDs in (lo, hi], nothing else. */
  ghost predicate Exactly(db: DB, lo: u64, hi: u64)
  {
    forall k :: k in db <==> InRange([], k, lo, hi)
  }

  lemma KeyForParts(prefix: Bytes, id: u64)
    ensures KeyFor(prefix, id)[..|prefix|] == prefix
    ensures KeyFor(prefix, id)[|prefix|..] == IdToKey(id)
  {
  }

  lemma KeyForInRange(prefix: Bytes, id: u64, lo: u64, hi: u64)
    ensures InRange(prefix, KeyFor(prefix, id), lo, hi) <==> lo < id <= hi
  {
    KeyForParts(prefix, id);
    KeyToIdOfIdToKey(id);
  }

  /** Keys under prefixes of one length coincide only for the same prefix and ID. */
  lemma KeyForInjective(p: Bytes, q: Bytes, a: u64, b: u64)
    requires |p| == |q|
    ensures KeyFor(p, a) == KeyFor(q, b) <==> p == q && a == b
  {
    KeyForParts(p, a);
    KeyForParts(q, b);
    if KeyFor(p, a) == KeyFor(q, b) {
      KeyToIdOfIdToKey(a);
      KeyToIdOfIdToKey(b);
    }
  }

  /** Every key in range is the key of the ID it decodes to. */
  lemma InRangeIsKeyFor(prefix: Bytes, k: Bytes, lo: u64, hi: u64)
    requires InRange(prefix, k, lo, hi)
    ensures k == KeyFor(prefix, KeyToId(k[|prefix|..]))
  {
    assert k == k[..|prefix|] + k[|prefix|..];
  }

  /** The value stored for `id`, or nothing. */
  function ValueAt(db: DB, prefix: Bytes, id: u64): Bytes
  {
    var k := KeyFor(prefix, id);
    if k in db then db[k] else []
  }

  /** The values of IDs lo+1, ..., hi, in ID order. */
  function Values(db: DB, prefix: Bytes, lo: u64, hi: u64): (vs: seq<Bytes>)
    ensures |vs| == if lo <= hi then hi - lo else 0
    decreases hi
  {
    if lo >= hi then [] else Values(db, prefix, lo, hi - 1) + [ValueAt(db, prefix, hi)]
  }

  /** Position i of the values is the value of ID lo+1+i. */
  lemma {:induction false} ValuesAt(db: DB, prefix: Bytes, lo: u64, hi: u64, i: int)
    requires lo <= hi && 0 <= i < hi - lo
    ensures Values(db, prefix, lo, hi)[i] == ValueAt(db, prefix, lo + 1 + i)
    decreases hi
  {
    if i < hi - lo - 1 {
      ValuesAt(db, prefix, lo, hi - 1, i);
    }
  }

  /** Two stores that agree on every ID of (lo, hi] list the same values. */
  lemma {:induction false} ValuesFrame(db1: DB, db2: DB, prefix: Bytes, lo: u64, hi: u64)
    requires forall j: u64 :: lo < j <= hi ==> ValueAt(db1, prefix, j) == ValueAt(db2, prefix, j)
    ensures Values(db1, prefix, lo, hi) == Values(db2, prefix, lo, hi)
    decreases hi
  {
    if lo < hi {
      ValuesFrame(db1, db2, prefix, lo, hi - 1);
    }
  }

  /** Starting one ID later drops the first value. */
  lemma {:induction false} ValuesShiftLow(db: DB, prefix: Bytes, lo: u64, hi: u64)
    requires lo < hi
    ensures Values(db, prefix, lo + 1, hi) == Values(db, prefix, lo, hi)[1..]
    decreases hi
  {
    if lo + 1 < hi {
      ValuesShiftLow(db, prefix, lo, hi - 1);
      var s := Values(db, prefix, lo, hi - 1);
      assert (s + [ValueAt(db, prefix, hi)])[1..] == s[1..] + [ValueAt(db, prefix, hi)];
    }
  }

  /** A write under another key does not change what an ID reads. */
  lemma ValueAtPutOther(db: DB, prefix: Bytes, k: Bytes, v: Bytes, j: u64)
    requires k != KeyFor(prefix, j)
    ensures ValueAt(db[k := v], prefix, j) == ValueAt(db, prefix, j)
  {
  }

  /** A delete under another key does not change what an ID reads. */
  lemma ValueAtDeleteOther(db: DB, prefix: Bytes, k: Bytes, j: u64)
    requires k != KeyFor(prefix, j)
    ensures ValueAt(db - {k}, prefix, j) == ValueAt(db, prefix, j)
  {
  }

  /** Writing a key that is not the key of an ID in (lo, hi] under `prefix`
      (another ID, or another prefix of the same length) leaves the range's
      values alone. */
  lemma ValuesPutOutside(db: DB, prefix: Bytes, lo: u64, hi: u64, other: Bytes, id: u64, v: Bytes)
    requires |other| == |prefix| && (other != prefix || !(lo < id <= hi))
    ensures Values(db[KeyFor(other, id) := v], prefix, lo, hi) == Values(db, prefix, lo, hi)
  {
    var k := KeyFor(other, id);
    forall j: u64 | lo < j <= hi
      ensures ValueAt(db[k := v], prefix, j) == ValueAt(db, prefix, j)
    {
      KeyForInjective(other, prefix, id, j);
      ValueAtPutOther(db, prefix, k, v, j);
    }
    ValuesFrame(db[k := v], db, prefix, lo, hi);
  }

  /** Deleting a key that is not the key of an ID in (lo, hi] under `prefix`
      leaves the range's values alone. */
  lemma ValuesDeleteOutside(db: DB, prefix: Bytes, lo: u64, hi: u64, other: Bytes, id: u64)
    requires |other| == |prefix| && (other != prefix || !(lo < id <= hi))
    ensures Values(db - {KeyFor(other, id)}, prefix, lo, hi) == Values(db, prefix, lo, hi)
  {
    var k := KeyFor(other, id);
    forall j: u64 | lo < j <= hi
      ensures ValueAt(db - {k}, prefix, j) == ValueAt(db, prefix, j)
    {
      KeyForInjective(other, prefix, id, j);
      ValueAtDeleteOther(db, prefix, k, j);
    }
    ValuesFrame(db - {k}, db, prefix, lo, hi);
  }

  /** Writing the key of hi+1 and widening the range to hi+1 appends the value. */
  lemma ValuesAppend(db: DB, prefix: Bytes, lo: u64, hi: u64, v: Bytes)
    requires lo <= hi < MAX64
    ensures Values(db[KeyFor(prefix, hi + 1) := v], prefix, lo, hi + 1) == Values(db, prefix, lo, hi) + [v]
  {
    ValuesPutOutside(db, prefix, lo, hi, prefix, hi + 1, v);
  }

  /** Deleting the key of lo+1 and narrowing the range to start there drops
      the first value. */
  lemma ValuesDropFirst(db: DB, prefix: Bytes, lo: u64, hi: u64)
    requires lo < hi
    ensures Values(db - {KeyFor(prefix, lo + 1)}, prefix, lo + 1, hi) == Values(db, prefix, lo, hi)[1..]
  {
    ValuesDeleteOutside(db, prefix, lo + 1, hi, prefix, lo + 1);
    ValuesShiftLow(db, prefix, lo, hi);
  }

  /** Deleting the key of hi and narrowing the range to end below it drops
      the last value. */
  lemma ValuesDropLast(db: DB, prefix: Bytes, lo: u64, hi: u64)
    requires lo < hi
    ensures Values(db - {KeyFor(prefix, hi)}, prefix, lo, hi - 1) == Values(db, prefix, lo, hi)[..hi - lo - 1]
  {
    ValuesDeleteOutside(db, prefix, lo, hi - 1, prefix, hi);
    var s := Values(db, prefix, lo, hi - 1);
    assert (s + [ValueAt(db, prefix, hi)])[..hi - lo - 1] == s;
  }

  /** Overwriting the top ID replaces the last position. */
  lemma ValuesPutTop(db: DB, prefix: Bytes, lo: u64, hi: u64, v: Bytes)
    requires lo < hi
    ensures Values(db[KeyFor(prefix, hi) := v], prefix, lo, hi)
         == Values(db, prefix, lo, hi)[hi - lo - 1 := v]
  {
    ValuesPutOutside(db, prefix, lo, hi - 1, prefix, hi, v);
    var s := Values(db, prefix, lo, hi - 1);
    assert (s + [ValueAt(db, prefix, hi)])[hi - lo - 1 := v] == s + [v];
  }

  /** Overwriting an ID in range replaces exactly its position. */
  lemma {:induction false} ValuesPutInside(db: DB, prefix: Bytes, lo: u64, hi: u64, id: u64, v: Bytes)
    requires lo < id <= hi
    ensures Values(db[KeyFor(prefix, id) := v], prefix, lo, hi)
         == Values(db, prefix, lo, hi)[id - lo - 1 := v]
    decreases hi
  {
    if id == hi {
      ValuesPutTop(db, prefix, lo, hi, v);
    } else {
      var k := KeyFor(prefix, id);
      var s := Values(db, prefix, lo, hi - 1);
      ValuesPutInside(db, prefix, lo, hi - 1, id, v);
      KeyForInjective(prefix, prefix, id, hi);
      ValueAtPutOther(db, prefix, k, v, hi);
      assert (s + [ValueAt(db, prefix, hi)])[id - lo - 1 := v] == s[id - lo - 1 := v] + [ValueAt(db, prefix, hi)];
    }
  }

  /** What an ordered iterator over the store sees of (lo, hi]: the listed
      keys are exactly the keys of that range, in ascending byte order. */
  ghost predicate Lists(keys: seq<Bytes>, prefix: Bytes, lo: u64, hi: u64)
  {
    SortedStrict(keys) && forall k :: k in keys <==> InRange(prefix, k, lo, hi)
  }

  lemma ListingFirst(keys: seq<Bytes>, prefix: Bytes, lo: u64, hi: u64)
    requires Lists(keys, prefix, lo, hi) && lo < hi
    ensures |keys| > 0 && keys[0] == KeyFor(prefix, lo + 1)
  {
    KeyForInRange(prefix, lo + 1, lo, hi);
    var first := KeyFor(prefix, lo + 1);
    assert first in keys;
    var j :| 0 <= j < |keys| && keys[j] == first;
    if j != 0 {
      assert InRange(prefix, keys[0], lo, hi);
      var i := KeyToId(keys[0][|prefix|..]);
      InRangeIsKeyFor(prefix, keys[0], lo, hi);
      assert LexLess(KeyFor(prefix, i), first);
      LexLessPrefix(prefix, IdToKey(i), IdToKey(lo + 1));
      IdToKeyOrder(i, lo + 1);
      assert false;
    }
  }

  lemma ListingLast(keys: seq<Bytes>, prefix: Bytes, lo: u64, hi: u64)
    requires Lists(keys, prefix, lo, hi) && lo < hi
    ensures |keys| > 0 && keys[|keys| - 1] == KeyFor(prefix, hi)
  {
    KeyForInRange(prefix, hi, lo, hi);
    var last := KeyFor(prefix, hi);
    assert last in keys;
    var n := |keys|;
    var j :| 0 <= j < n && keys[j] == last;
    if j != n - 1 {
      assert InRange(prefix, keys[n - 1], lo, hi);
      var t := KeyToId(keys[n - 1][|prefix|..]);
      InRangeIsKeyFor(prefix, keys[n - 1], lo, hi);
      assert LexLess(last, KeyFor(prefix, t));
      LexLessPrefix(prefix, IdToKey(hi), IdToKey(t));
      IdToKeyOrder(hi, t);
      assert false;
    }
  }

  /** An ordered iterator over the keys of (lo, hi] starts at the key of lo+1
      and ends at the key of hi; it is empty exactly when lo == hi. */
  lemma ListingEnds(keys: seq<Bytes>, prefix: Bytes, lo: u64, hi: u64)
    requires Lists(keys, prefix, lo, hi) && lo <= hi
    ensures |keys| == 0 <==> lo == hi
    ensures lo < hi ==> keys[0] == KeyFor(prefix, lo + 1)
    ensures lo < hi ==> keys[|keys| - 1] == KeyFor(prefix, hi)
  {
    if lo < hi {
      ListingFirst(keys, prefix, lo, hi);
      ListingLast(keys, prefix, lo, hi);
    }
    assert |keys| > 0 ==> InRange(prefix, keys[0], lo, hi);
  }

  /** With the empty prefix a key is just idToKey. */
  lemma EmptyPrefix(id: u64)
    ensures KeyFor([], id) == IdToKey(id)
  {
  }

  /** Whether a key is in (lo, hi], told by the ID it decodes to. */
  lemma InRangeById(k: Bytes, lo: u64, hi: u64, lo': u64, hi': u64)
    requires InRange([], k, lo, hi)
    ensures InRange([], k, lo', hi') <==> lo' < KeyToId(k) <= hi'
  {
    assert k[0..] == k;
  }

  lemma ExactlyEmpty(db: DB, lo: u64)
    requires Exactly(db, lo, lo)
    ensures db == map[]
  {
    assert forall key :: key !in db;
  }

  /** Storing the key of hi+1 extends the range by one at the top. */
  lemma ExactlyGrowHigh(db: DB, lo: u64, hi: u64, v: Bytes)
    requires lo <= hi < MAX64 && Exactly(db, lo, hi)
    ensures Exactly(db[KeyFor([], hi + 1) := v], lo, hi + 1)
  {
    var k := KeyFor([], hi + 1);
    var grown := db[k := v];
    KeyForInRange([], hi + 1, lo, hi + 1);
    forall key
      ensures key in grown <==> InRange([], key, lo, hi + 1)
    {
      if InRange([], key, lo, hi + 1) {
        InRangeIsKeyFor([], key, lo, hi + 1);
        InRangeById(key, lo, hi + 1, lo, hi);
      }
      if key in db {
        InRangeById(key, lo, hi, lo, hi + 1);
      }
    }
  }

  /** Deleting the key of lo+1 shrinks the range by one at the bottom. */
  lemma ExactlyShrinkLow(db: DB, lo: u64, hi: u64)
    requires lo < hi && Exactly(db, lo, hi)
    ensures Exactly(db - {KeyFor([], lo + 1)}, lo + 1, hi)
  {
    var k := KeyFor([], lo + 1);
    KeyForInRange([], lo + 1, lo, hi);
    KeyForInRange([], lo + 1, lo + 1, hi);
    forall key
      ensures key in db - {k} <==> InRange([], key, lo + 1, hi)
    {
      if key in db {
        InRangeIsKeyFor([], key, lo, hi);
        InRangeById(key, lo, hi, lo + 1, hi);
      }
      if InRange([], key, lo + 1, hi) {
        InRangeById(key, lo + 1, hi, lo, hi);
      }
    }
  }

  /** Deleting the key of hi shrinks the range by one at the top. */
  lemma ExactlyShrinkHigh(db: DB, lo: u64, hi: u64)
    requires lo < hi && Exactly(db, lo, hi)
    ensures Exactly(db - {KeyFor([], hi)}, lo, hi - 1)
  {
    var k := KeyFor([], hi);
    KeyForInRange([], hi, lo, hi);
    KeyForInRange([], hi, lo, hi - 1);
    forall key
      ensures key in db - {k} <==> InRange([], key, lo, hi - 1)
    {
      if key in db {
        InRangeIsKeyFor([], key, lo, hi);
        InRangeById(key, lo, hi, lo, hi - 1);
      }
      if InRange([], key, lo, hi - 1) {
        InRangeById(key, lo, hi - 1, lo, hi);
      }
    }
  }

  /** Overwriting a stored key keeps the key set. */
  lemma ExactlyOverwrite(db: DB, lo: u64, hi: u64, id: u64, v: Bytes)
    requires lo < id <= hi && Exactly(db, lo, hi)
    ensures Exactly(db[KeyFor([], id) := v], lo, hi)
  {
    KeyForInRange([], id, lo, hi);
  }

  /** A store holding exactly the keys of (lo, hi] holds hi - lo entries. */
  lemma {:induction false} CountKeys(db: DB, lo: u64, hi: u64)
    requires lo <= hi && Exactly(db, lo, hi)
    ensures |db| == hi - lo
    decreases hi - lo
  {
    if lo < hi {
      var k := KeyFor([], hi);
      KeyForInRange([], hi, lo, hi);
      ExactlyShrinkHigh(db, lo, hi);
      CountKeys(db - {k}, lo, hi - 1);
      assert (db - {k}).Keys == db.Keys - {k};
    } else {
      ExactlyEmpty(db, lo);
    }
  }
}

=== FILE: pqueue.dfy ===
/** The priority queue of pqueue.go: 256 FIFO levels sharing one store, each
    level's keys carrying a two-byte prefix (the level, then ':'), and a
    cursor `curLevel` that points at the level Dequeue serves next. */
module PriorityQueues {
  import opened Results
  import opened Codec
  import opened Keyspace
  import Store

  /** ASC serves level 0 first, DESC serves level 255 first. */
  datatype Order = Asc | Desc

  /** The (head, tail] window of IDs of one priority level. */
  datatype Level = Level(head: u64, tail: u64)

  function LevelLength(l: Level): (len: u64)
    ensures Add64(l.head, len) == l.tail
    ensures l.head <= l.tail ==> len == l.tail - l.head
  {
    Sub64(l.tail, l.head)
  }

  /** The fixed array of 256 levels, one per priority byte. */
  type Levels = s: seq<Level> | |s| == 256 witness seq(256, _ => Level(0, 0))

  datatype PQ = PQ(order: Order, levels: Levels, curLevel: u8, isOpen: bool, db: Store.DB)

  /** The byte ':' that separates the level from the ID in every key. */
  const SEP: u8 := 58

  /** Dequeue's rescan visits levels 0 up to, but not including, this one. */
  const RESCAN_END: nat := 255

  /** generatePrefix: the level byte followed by ':'. */
  function GeneratePrefix(level: u8): (prefix: Bytes)
    ensures |prefix| == 2 && prefix[0] == level && prefix[1] == SEP
  {
    [level, SEP]
  }

  /** generateKey: the level's prefix followed by idToKey(id), ten bytes. */
  function GenerateKey(priority: u8, id: u64): (key: Bytes)
    ensures |key| == 10
    ensures key[..2] == GeneratePrefix(priority) && KeyToId(key[2..]) == id
  {
    KeyForParts(GeneratePrefix(priority), id);
    KeyToIdOfIdToKey(id);
    KeyFor(GeneratePrefix(priority), id)
  }

  /** cmpAsc || cmpDesc: level `a` is served before level `b`. */
  predicate MoreImportant(order: Order, a: u8, b: u8)
  {
    match order
    case Asc => a < b
    case Desc => a > b
  }

  /** Under either order, "more important" is a strict total order on the
      256 levels. */
  lemma MoreImportantIsStrict(order: Order, a: u8, b: u8, c: u8)
    ensures !MoreImportant(order, a, a)
    ensures a != b ==> (MoreImportant(order, a, b) <==> !MoreImportant(order, b, a))
    ensures MoreImportant(order, a, b) && MoreImportant(order, b, c) ==> MoreImportant(order, a, c)
  {
  }

  /** resetCurrentLevel: the least important level, where a search for the
      most important non-empty level starts. */
  function ResetLevel(order: Order): (level: u8)
    ensures forall other: u8 :: other != level ==> MoreImportant(order, other, level)
  {
    match order
    case Asc => 255
    case Desc => 0
  }

  /** Which of the 256 levels hold items, as the rescan loops see them. */
  type Occupancy = s: seq<bool> | |s| == 256 witness seq(256, _ => false)

  function Occupied(levels: Levels): Occupancy
  {
    seq(256, j requires 0 <= j < 256 => LevelLength(levels[j]) > 0)
  }

  /** The rescan loop from index i to stop (exclusive): a level is taken when
      it holds items and is more important than the level taken so far. The
      result is the most important occupied level of [i, stop) when that
      beats `cur`, and `cur` otherwise. */
  function Scan(order: Order, full: Occupancy, cur: u8, i: nat, stop: nat): (r: u8)
    requires i <= stop <= 256
    ensures r == cur || (i <= r as int < stop && full[r] && MoreImportant(order, r, cur))
    ensures forall j: u8 :: i <= j as int < stop && full[j] ==> !MoreImportant(order, j, r)
    decreases stop - i
  {
    if i == stop then cur
    else
      var next := if MoreImportant(order, i as u8, cur) && full[i] then i as u8 else cur;
      Scan(order, full, next, i + 1, stop)
  }

  /** The level Dequeue serves: curLevel while it holds items; otherwise
      curLevel is reset and the rescan over levels 0..254 picks a new one. */
  function SelectLevel(pq: PQ): (p: u8)
    ensures LevelLength(pq.levels[pq.curLevel]) != 0 ==> p == pq.curLevel
    ensures LevelLength(pq.levels[p]) == 0 ==>
      forall j: u8 :: j as int < RESCAN_END ==> LevelLength(pq.levels[j]) == 0
  {
    if LevelLength(pq.levels[pq.curLevel]) == 0 then
      var full := Occupied(pq.levels);
      var r := Scan(pq.order, full, ResetLevel(pq.order), 0, RESCAN_END);
      assert LevelLength(pq.levels[r]) == 0 ==> forall j: u8 :: j as int < RESCAN_END ==> LevelLength(pq.levels[j]) == 0 by {
        if LevelLength(pq.levels[r]) == 0 {
          // An empty result is the starting level, which every other level beats.
          assert r == ResetLevel(pq.order);
          forall j: u8 | j as int < RESCAN_END
            ensures LevelLength(pq.levels[j]) == 0
          {
            if j != r {
              assert !full[j];
            }
          }
        }
      }
      r
    else pq.curLevel
  }

  /** What getItemByPriorityID hands back: an item, an error, or both (a
      failed read still returns the item, with an empty value). */
  datatype Fetch = Fetch(item: Option<PriorityItem>, err: Option<Error>)

  /** getItemByPriorityID: emptiness is checked before bounds, then the key
      is read. */
  function GetItemByPriorityID(pq: PQ, priority: u8, id: u64, get: Fault): (r: Fetch)
    ensures LevelLength(pq.levels[priority]) == 0 ==> r == Fetch(None, Some(Empty))
    ensures LevelLength(pq.levels[priority]) != 0 ==>
      (r == Fetch(None, Some(OutOfBounds)) <==> id <= pq.levels[priority].head || id > pq.levels[priority].tail)
    ensures r.item.Some? ==>
      r.item.value.id == id && r.item.value.priority == priority && r.item.value.key == GenerateKey(priority, id)
    ensures r.err.None? <==>
      && LevelLength(pq.levels[priority]) != 0
      && pq.levels[priority].head < id <= pq.levels[priority].tail
      && pq.isOpen && get.Succeeds? && GenerateKey(priority, id) in pq.db
    ensures r.err.None? ==> r.item.Some? && r.item.value.value == pq.db[GenerateKey(priority, id)]
    ensures r.item.Some? && r.err.Some? ==> r.item.value.value == []
    ensures LevelLength(pq.levels[priority]) != 0 && pq.levels[priority].head < id <= pq.levels[priority].tail ==>
      r.item == Some(PriorityItem(id, priority, GenerateKey(priority, id),
                                  if r.err.None? then pq.db[GenerateKey(priority, id)] else []))
    ensures LevelLength(pq.levels[priority]) != 0 && pq.levels[priority].head < id <= pq.levels[priority].tail ==>
      && (!pq.isOpen ==> r.err == Some(StoreClosed))
      && (pq.isOpen && get.Fails? ==> r.err == Some(Io(get.code)))
      && (pq.isOpen && get.Succeeds? && GenerateKey(priority, id) !in pq.db ==> r.err == Some(NotFound))
  {
    var level := pq.levels[priority];
    if LevelLength(level) < 1 then Fetch(None, Some(Empty))
    else if id <= level.head || id > level.tail then Fetch(None, Some(OutOfBounds))
    else
      var key := GenerateKey(priority, id);
      match Store.Get(pq.db, pq.isOpen, key, get)
      case Ok(v) => Fetch(Some(PriorityItem(id, priority, key, v)), None)
      case Err(e) => Fetch(Some(PriorityItem(id, priority, key, [])), Some(e))
  }

  /** The queue after Dequeue, with the item and the error it returned. */
  datatype Taken = Taken(pq: PQ, item: Option<PriorityItem>, err: Option<Error>)

  /** Dequeue: settle on a level (a rescan moves curLevel for good, even when
      it then reports Empty), read that level's oldest item, delete it, and
      only then move the level's head. */
  function Dequeue(pq: PQ, get: Fault, del: Fault): (r: Taken)
    ensures r.pq.curLevel == SelectLevel(pq)
    ensures r.err.Some? ==> r.pq == pq.(curLevel := SelectLevel(pq))
    ensures r.err == Some(Empty) ==> r.item.None?
  {
    var p := SelectLevel(pq);
    var pq1 := pq.(curLevel := p);
    if LevelLength(pq1.levels[p]) == 0 then Taken(pq1, None, Some(Empty))
    else
      var f := GetItemByPriorityID(pq1, p, Add64(pq1.levels[p].head, 1), get);
      if f.err.Some? then Taken(pq1, f.item, f.err)
      else
        var item := f.item.value;
        match Store.Delete(pq1.db, pq1.isOpen, item.key, del)
        case Err(e) => Taken(pq1, Some(item), Some(e))
        case Ok(db) => Taken(pq1.(levels := pq1.levels[p := pq1.levels[p].(head := item.id)], db := db), Some(item), None)
  }

  /** The queue after Enqueue, the item as Enqueue filled it in (its ID and
      key are set even when the write fails), and the error. */
  datatype Queued = Queued(pq: PQ, item: PriorityItem, err: Option<Error>)

  /** Enqueue: the item gets ID tail+1 of its level; once the write succeeded
      the level's tail moves, and curLevel moves to the item's level when that
      level is more important. There is no isOpen check: a closed store
      refuses the write. */
  function Enqueue(pq: PQ, priority: u8, value: Bytes, put: Fault): (r: Queued)
    ensures var id := Add64(pq.levels[priority].tail, 1);
      r.item == PriorityItem(id, priority, GenerateKey(priority, id), value)
    ensures r.err.None? <==> pq.isOpen && put.Succeeds?
    ensures !pq.isOpen ==> r.err == Some(StoreClosed)
    ensures pq.isOpen && put.Fails? ==> r.err == Some(Io(put.code))
    ensures r.err.Some? ==> r.pq == pq
    ensures r.err.None? ==>
      && r.pq.levels == pq.levels[priority := pq.levels[priority].(tail := r.item.id)]
      && r.pq.db == pq.db[r.item.key := value]
      && r.pq.order == pq.order && r.pq.isOpen == pq.isOpen
      && (r.pq.curLevel == priority <==> MoreImportant(pq.order, priority, pq.curLevel) || priority == pq.curLevel)
      && (r.pq.curLevel != priority ==> r.pq.curLevel == pq.curLevel)
  {
    var level := pq.levels[priority];
    var id := Add64(level.tail, 1);
    var item := PriorityItem(id, priority, GenerateKey(priority, id), value);
    match Store.Put(pq.db, pq.isOpen, item.key, value, put)
    case Err(e) => Queued(pq, item, Some(e))
    case Ok(db) =>
      var cur := if MoreImportant(pq.order, priority, pq.curLevel) then priority else pq.curLevel;
      Queued(pq.(levels := pq.levels[priority := level.(tail := id)], db := db, curLevel := cur), item, None)
  }

  /** The uint64 sum of the lengths of levels 0..n-1. */
  function SumLengths(levels: Levels, n: nat): (sum: u64)
    requires n <= 256
    ensures sum == Total(levels, n) % TWO64
  {
    if n == 0 then 0
    else
      Wrap64(SumLengths(levels, n - 1), LevelLength(levels[n - 1]));
      ModAdd(Total(levels, n - 1), LevelLength(levels[n - 1]));
      Add64(SumLengths(levels, n - 1), LevelLength(levels[n - 1]))
  }

  /** Length: the sum of all level lengths, in uint64. */
  function Length(pq: PQ): (len: u64)
    ensures len == Total(pq.levels, 256) % TWO64
  {
    SumLengths(pq.levels, 256)
  }

  /** Close: a no-op on a closed queue; otherwise the store is closed (its
      error is ignored) and the queue marked closed. The levels and curLevel
      are left as they were. */
  function Close(pq: PQ): (r: PQ)
    ensures !r.isOpen
    ensures r == pq.(isOpen := false)
  {
    if !pq.isOpen then pq else pq.(isOpen := false)
  }

  /** What the prefix iterator over one level reports: its keys in order, or
      a failure. */
  datatype Listing = Listing(keys: seq<Bytes>, fault: Fault)

  /** keyToID(key[2:]) needs ten bytes in every key init reads. */
  predicate Readable(listings: seq<Listing>)
  {
    forall i :: 0 <= i < |listings| && |listings[i].keys| > 0 ==>
      |listings[i].keys[0]| >= 10 && |listings[i].keys[|listings[i].keys| - 1]| >= 10
  }

  /** The level init builds from one listing: head is the first ID minus one
      and tail the last ID; an empty listing leaves the level at (0, 0). */
  function LevelFrom(keys: seq<Bytes>): (l: Level)
    requires |keys| > 0 ==> |keys[0]| >= 10 && |keys[|keys| - 1]| >= 10
    ensures |keys| == 0 ==> l == Level(0, 0)
    ensures |keys| > 0 ==> Add64(l.head, 1) == KeyToId(keys[0][2..]) && l.tail == KeyToId(keys[|keys| - 1][2..])
  {
    if |keys| == 0 then Level(0, 0)
    else Level(Sub64(KeyToId(keys[0][2..]), 1), KeyToId(keys[|keys| - 1][2..]))
  }

  /** The rebuilt levels and cursor. */
  datatype Rebuilt = Rebuilt(levels: Levels, curLevel: u8)

  /** The first failing iterator among levels i..255, if any. */
  function FirstFailure(listings: seq<Listing>, i: nat): (r: Option<nat>)
    requires |listings| == 256 && i <= 256
    ensures r.None? <==> forall j :: i <= j < 256 ==> listings[j].fault.Succeeds?
    ensures r.Some? ==> i <= r.value < 256 && listings[r.value].fault.Fails?
    ensures r.Some? ==> forall j :: i <= j < r.value ==> listings[j].fault.Succeeds?
    decreases 256 - i
  {
    if i == 256 then None
    else if listings[i].fault.Fails? then Some(i)
    else FirstFailure(listings, i + 1)
  }

  /** init: reset curLevel and walk all 256 levels, building each from its
      listing and moving curLevel to any more important level with items;
      the first failing iterator ends the walk with its error. The cursor is
      the same scan Dequeue uses, here over all 256 levels. */
  function Init(order: Order, listings: seq<Listing>): (r: Result<Rebuilt>)
    requires |listings| == 256 && Readable(listings)
    ensures r.Ok? <==> forall j :: 0 <= j < 256 ==> listings[j].fault.Succeeds?
    ensures r.Err? ==> exists i :: 0 <= i < 256 && listings[i].fault.Fails? && r.error == Io(listings[i].fault.code)
                                  && forall j :: 0 <= j < i ==> listings[j].fault.Succeeds?
    ensures r.Ok? ==> forall j: u8 :: r.value.levels[j] == LevelFrom(listings[j].keys)
    ensures r.Ok? ==> forall j: u8 :: |listings[j].keys| > 0 ==> !MoreImportant(order, j, r.value.curLevel)
    ensures r.Ok? ==> r.value.curLevel == ResetLevel(order) || |listings[r.value.curLevel].keys| > 0
  {
    match FirstFailure(listings, 0)
    case Some(i) =>
      assert listings[i].fault.Fails?;
      Err(Io(listings[i].fault.code))
    case None =>
      var levels: Levels := seq(256, j requires 0 <= j < 256 => LevelFrom(listings[j].keys));
      var listed: Occupancy := seq(256, j requires 0 <= j < 256 => |listings[j].keys| > 0);
      var cur := Scan(order, listed, ResetLevel(order), 0, 256);
      assert forall j: u8 :: |listings[j].keys| > 0 ==> !MoreImportant(order, j, cur) by {
        forall j: u8 | |listings[j].keys| > 0
          ensures !MoreImportant(order, j, cur)
        {
          assert listed[j];
        }
      }
      Ok(Rebuilt(levels, cur))
  }

  /** OpenPriorityQueue: open the store, mark the queue open and run init.
      When the store or an iterator fails, the queue Go returns has nil levels
      from the failing one on, so the model returns only the error. */
  function Open(db: Store.DB, open: Fault, order: Order, listings: seq<Listing>): (r: Result<PQ>)
    requires |listings| == 256 && Readable(listings)
    ensures open.Fails? ==> r == Err(Io(open.code))
    ensures open.Succeeds? ==> (r.Ok? <==> forall p: u8 :: listings[p].fault.Succeeds?)
    ensures r.Ok? ==> r.value.isOpen && r.value.db == db && r.value.order == order
  {
    if open.Fails? then Err(Io(open.code))
    else match Init(order, listings)
      case Err(e) => Err(e)
      case Ok(rebuilt) => Ok(PQ(order, rebuilt.levels, rebuilt.curLevel, true, db))
  }

  // ----- Keys -----

  /** A level key is the level byte, ':' and the eight-byte ID key. */
  lemma GenerateKeyParts(priority: u8, id: u64)
    ensures GenerateKey(priority, id)[0] == priority && GenerateKey(priority, id)[1] == SEP
    ensures GenerateKey(priority, id)[..2] == GeneratePrefix(priority)
    ensures GenerateKey(priority, id)[2..] == IdToKey(id)
    ensures KeyToId(GenerateKey(priority, id)[2..]) == id
  {
    KeyForParts(GeneratePrefix(priority), id);
    KeyToIdOfIdToKey(id);
  }

  /** Distinct (level, ID) pairs never share a key. */
  lemma GenerateKeyInjective(p: u8, q: u8, a: u64, b: u64)
    ensures GenerateKey(p, a) == GenerateKey(q, b) <==> p == q && a == b
  {
    KeyForInjective(GeneratePrefix(p), GeneratePrefix(q), a, b);
  }

  /** The key of the first item of level 0, byte by byte. */
  lemma GenerateKeyOfFirst()
    ensures GenerateKey(0, 1) == [0, 58, 0, 0, 0, 0, 0, 0, 0, 1]
  {
    IdToKeyOfOne();
  }

  /** Keys sort by level first and by ID within a level, so each level is one
      contiguous, ID-ordered run of the store. */
  lemma GenerateKeyOrder(p: u8, q: u8, a: u64, b: u64)
    ensures LexLess(GenerateKey(p, a), GenerateKey(q, b)) <==> p < q || (p == q && a < b)
  {
    var x, y := IdToKey(a), IdToKey(b);
    assert GenerateKey(p, a) == [p] + ([SEP] + x);
    assert GenerateKey(q, b) == [q] + ([SEP] + y);
    assert GenerateKey(p, a)[1..] == [SEP] + x;
    assert GenerateKey(q, b)[1..] == [SEP] + y;
    LexLessPrefix([SEP], x, y);
    IdToKeyOrder(a, b);
  }

  // ----- The invariant -----

  /** Every level's window is well formed. */
  predicate Ordered(levels: Levels)
  {
    forall p: u8 :: levels[p].head <= levels[p].tail
  }

  /** `k` is the key of a live item: ten bytes, and the key of an ID inside
      the window of the level its first byte names. */
  ghost predicate LiveKey(levels: Levels, k: Bytes)
  {
    |k| == 10 && InRange(GeneratePrefix(k[0]), k, levels[k[0]].head, levels[k[0]].tail)
  }

  /** The store holds exactly the keys of the live items. */
  ghost predicate Stored(db: Store.DB, levels: Levels)
  {
    forall k :: k in db <==> LiveKey(levels, k)
  }

  /** No level more important than curLevel holds items. */
  predicate CurrentIsBest(order: Order, levels: Levels, cur: u8)
  {
    forall p: u8 :: MoreImportant(order, p, cur) ==> LevelLength(levels[p]) == 0
  }

  ghost predicate Valid(pq: PQ)
  {
    Ordered(pq.levels) && Stored(pq.db, pq.levels) && CurrentIsBest(pq.order, pq.levels, pq.curLevel)
  }

  /** In a valid queue the key of (level, id) is stored exactly when id lies
      in that level's window. */
  lemma KeyStored(pq: PQ, p: u8, id: u64)
    requires Valid(pq)
    ensures GenerateKey(p, id) in pq.db <==> pq.levels[p].head < id <= pq.levels[p].tail
  {
    GenerateKeyParts(p, id);
    KeyForInRange(GeneratePrefix(p), id, pq.levels[p].head, pq.levels[p].tail);
  }

  /** The values of one level, oldest first. */
  function LevelContents(pq: PQ, p: u8): seq<Bytes>
  {
    Values(pq.db, GeneratePrefix(p), pq.levels[p].head, pq.levels[p].tail)
  }

  /** What the queue holds: the contents of each of the 256 levels. */
  function Contents(pq: PQ): (c: seq<seq<Bytes>>)
    ensures |c| == 256
  {
    seq(256, p requires 0 <= p < 256 => LevelContents(pq, p as u8))
  }

  predicate AllEmpty(levels: Levels)
  {
    forall p: u8 :: LevelLength(levels[p]) == 0
  }

  /** Level p holds items and no more important level does. */
  predicate IsBest(order: Order, levels: Levels, p: u8)
  {
    LevelLength(levels[p]) > 0 && CurrentIsBest(order, levels, p)
  }

  // ----- Which level Dequeue serves -----

  /** Under DESC, curLevel with no items means level 255 has none either:
      either it is curLevel, or it is more important than curLevel. */
  lemma TopLevelEmpty(pq: PQ)
    requires CurrentIsBest(pq.order, pq.levels, pq.curLevel)
    requires pq.order == Desc && LevelLength(pq.levels[pq.curLevel]) == 0
    ensures LevelLength(pq.levels[255]) == 0
  {
    if pq.curLevel != 255 {
      assert MoreImportant(pq.order, 255, pq.curLevel);
    }
  }

  /** The rescan stops one level short (i < 255), yet with curLevel the most
      important non-empty level it still finds the most important level with
      items: under ASC level 255 is where the scan starts, and under DESC
      level 255 is empty whenever a rescan happens. So Dequeue serves the
      best level, and reports Empty only when every level is empty. */
  lemma SelectLevelIsBest(pq: PQ)
    requires CurrentIsBest(pq.order, pq.levels, pq.curLevel)
    ensures LevelLength(pq.levels[SelectLevel(pq)]) == 0 <==> AllEmpty(pq.levels)
    ensures !AllEmpty(pq.levels) ==> IsBest(pq.order, pq.levels, SelectLevel(pq))
  {
    var order, levels := pq.order, pq.levels;
    if LevelLength(levels[pq.curLevel]) == 0 {
      var reset := ResetLevel(order);
      var full := Occupied(levels);
      var r := Scan(order, full, reset, 0, RESCAN_END);
      assert SelectLevel(pq) == r;
      if order == Desc {
        TopLevelEmpty(pq);
      }
      // Every level but 255 is covered by the scan; 255 is never more
      // important than r (ASC) or is empty (DESC).
      forall q: u8 | MoreImportant(order, q, r)
        ensures LevelLength(levels[q]) == 0
      {
        if q < 255 {
          assert !full[q];
        }
      }
      if LevelLength(levels[r]) == 0 {
        assert r == reset;
        forall q: u8
          ensures LevelLength(levels[q]) == 0
        {
          if q != reset {
            assert MoreImportant(order, q, reset);
          }
        }
      }
    }
  }

  /** Without the invariant the short rescan does lose an item: under DESC
      with curLevel 0 empty and an item in level 255, Dequeue reports Empty. */
  lemma ShortRescanNeedsInvariant()
    ensures var levels: Levels := seq(256, j requires 0 <= j < 256 => if j == 255 then Level(0, 1) else Level(0, 0));
      var pq := PQ(Desc, levels, 0, true, map[GenerateKey(255, 1) := []]);
      && !AllEmpty(pq.levels)
      && Dequeue(pq, Succeeds, Succeeds).err == Some(Empty)
  {
    var levels: Levels := seq(256, j requires 0 <= j < 256 => if j == 255 then Level(0, 1) else Level(0, 0));
    var pq := PQ(Desc, levels, 0, true, map[GenerateKey(255, 1) := []]);
    assert LevelLength(levels[255]) == 1;
    var r := Scan(Desc, Occupied(levels), 0, 0, RESCAN_END);
    assert r == 0;
  }

  // ----- How Dequeue and Enqueue change the store -----

  /** Every ten-byte key with ':' in second place is some level's key. */
  lemma LevelKeyShape(k: Bytes)
    requires |k| == 10 && k[1] == SEP
    ensures k == GenerateKey(k[0], KeyToId(k[2..]))
  {
    assert k == [k[0], SEP] + k[2..];
  }

  /** Only keys of the level-key shape can be live. */
  lemma NotLevelKey(levels: Levels, k: Bytes)
    requires !(|k| == 10 && k[1] == SEP)
    ensures !LiveKey(levels, k)
  {
    if |k| == 10 {
      assert k[..2][1] == k[1];
    }
  }

  lemma LiveKeyOf(levels: Levels, p: u8, id: u64)
    ensures LiveKey(levels, GenerateKey(p, id)) <==> levels[p].head < id <= levels[p].tail
  {
    GenerateKeyParts(p, id);
    KeyForInRange(GeneratePrefix(p), id, levels[p].head, levels[p].tail);
  }

  /** Dropping the oldest key of level p and moving its head keeps the store
      and the windows in step. */
  lemma StoredRemoveOldest(db: Store.DB, levels: Levels, p: u8)
    requires Stored(db, levels) && levels[p].head < levels[p].tail
    ensures Stored(db - {GenerateKey(p, levels[p].head + 1)}, levels[p := levels[p].(head := levels[p].head + 1)])
  {
    var id := levels[p].head + 1;
    var key := GenerateKey(p, id);
    var after: Levels := levels[p := levels[p].(head := id)];
    forall k
      ensures k in db - {key} <==> LiveKey(after, k)
    {
      GenerateKeyParts(p, id);
      if |k| == 10 && k[1] == SEP {
        LevelKeyShape(k);
        LiveKeyOf(levels, k[0], KeyToId(k[2..]));
        LiveKeyOf(after, k[0], KeyToId(k[2..]));
        GenerateKeyInjective(k[0], p, KeyToId(k[2..]), id);
      } else {
        NotLevelKey(levels, k);
        NotLevelKey(after, k);
      }
    }
  }

  /** Writing the key of tail+1 in level p and moving its tail keeps the
      store and the windows in step. */
  lemma StoredAppend(db: Store.DB, levels: Levels, p: u8, v: Bytes)
    requires Stored(db, levels) && levels[p].head <= levels[p].tail < MAX64
    ensures Stored(db[GenerateKey(p, levels[p].tail + 1) := v], levels[p := levels[p].(tail := levels[p].tail + 1)])
  {
    var id := levels[p].tail + 1;
    var key := GenerateKey(p, id);
    var after: Levels := levels[p := levels[p].(tail := id)];
    forall k
      ensures k in db[key := v] <==> LiveKey(after, k)
    {
      GenerateKeyParts(p, id);
      if |k| == 10 && k[1] == SEP {
        LevelKeyShape(k);
        LiveKeyOf(levels, k[0], KeyToId(k[2..]));
        LiveKeyOf(after, k[0], KeyToId(k[2..]));
        GenerateKeyInjective(k[0], p, KeyToId(k[2..]), id);
      } else {
        NotLevelKey(levels, k);
        NotLevelKey(after, k);
      }
    }
  }

  /** The two-byte prefixes of distinct levels differ. */
  lemma PrefixesDiffer(p: u8, q: u8)
    requires p != q
    ensures GeneratePrefix(p) != GeneratePrefix(q) && |GeneratePrefix(p)| == |GeneratePrefix(q)|
  {
    assert GeneratePrefix(p)[0] != GeneratePrefix(q)[0];
  }

  /** Removing the oldest item of level p drops the front of that level's
      contents and leaves every other level's contents alone. */
  lemma ContentsRemoveOldest(pq: PQ, p: u8)
    requires pq.levels[p].head < pq.levels[p].tail
    ensures var id := pq.levels[p].head + 1;
      var after := pq.(levels := pq.levels[p := pq.levels[p].(head := id)], db := pq.db - {GenerateKey(p, id)});
      Contents(after) == Contents(pq)[p := Contents(pq)[p][1..]]
  {
    var id := pq.levels[p].head + 1;
    var after := pq.(levels := pq.levels[p := pq.levels[p].(head := id)], db := pq.db - {GenerateKey(p, id)});
    forall q: u8
      ensures LevelContents(after, q) == Contents(pq)[p := Contents(pq)[p][1..]][q]
    {
      var l := pq.levels[q];
      if q == p {
        ValuesDropFirst(pq.db, GeneratePrefix(p), l.head, l.tail);
      } else {
        PrefixesDiffer(p, q);
        ValuesDeleteOutside(pq.db, GeneratePrefix(q), l.head, l.tail, GeneratePrefix(p), id);
      }
    }
  }

  /** Appending at tail+1 of level p adds the value at the back of that
      level's contents and leaves every other level's contents alone. */
  lemma ContentsAppend(pq: PQ, p: u8, v: Bytes)
    requires pq.levels[p].head <= pq.levels[p].tail < MAX64
    ensures var id := pq.levels[p].tail + 1;
      var after := pq.(levels := pq.levels[p := pq.levels[p].(tail := id)], db := pq.db[GenerateKey(p, id) := v]);
      Contents(after) == Contents(pq)[p := Contents(pq)[p] + [v]]
  {
    var id := pq.levels[p].tail + 1;
    var after := pq.(levels := pq.levels[p := pq.levels[p].(tail := id)], db := pq.db[GenerateKey(p, id) := v]);
    forall q: u8
      ensures LevelContents(after, q) == Contents(pq)[p := Contents(pq)[p] + [v]][q]
    {
      var l := pq.levels[q];
      if q == p {
        ValuesAppend(pq.db, GeneratePrefix(p), l.head, l.tail, v);
      } else {
        PrefixesDiffer(p, q);
        ValuesPutOutside(pq.db, GeneratePrefix(q), l.head, l.tail, GeneratePrefix(p), id, v);
      }
    }
  }

  // ----- Dequeue -----

  /** Dequeue fails with Empty exactly when every level is empty, and
      succeeds exactly when there is an item and the store lets it be read
      and deleted. */
  lemma DequeueOutcome(pq: PQ, get: Fault, del: Fault)
    requires Valid(pq)
    ensures Dequeue(pq, get, del).err == Some(Empty) <==> AllEmpty(pq.levels)
    ensures Dequeue(pq, get, del).err.None? <==>
      pq.isOpen && get.Succeeds? && del.Succeeds? && !AllEmpty(pq.levels)
  {
    SelectLevelIsBest(pq);
    var p := SelectLevel(pq);
    if !AllEmpty(pq.levels) {
      var id := pq.levels[p].head + 1;
      assert Add64(pq.levels[p].head, 1) == id;
      KeyStored(pq, p, id);
    }
  }

  /** Every path through Dequeue, failing or not, keeps the invariant. */
  lemma DequeueKeepsValid(pq: PQ, get: Fault, del: Fault)
    requires Valid(pq)
    ensures Valid(Dequeue(pq, get, del).pq)
  {
    var r := Dequeue(pq, get, del);
    SelectLevelIsBest(pq);
    var p := SelectLevel(pq);
    if r.err.None? {
      DequeueSucceeds(pq, get, del);
      StoredRemoveOldest(pq.db, pq.levels, p);
    } else {
      assert r.pq == pq.(curLevel := p);
    }
  }

  /** The shape of a successful Dequeue: the served level has items, and its
      oldest key is read, deleted, and passed by the head. */
  lemma DequeueSucceeds(pq: PQ, get: Fault, del: Fault)
    requires Ordered(pq.levels) && Dequeue(pq, get, del).err.None?
    ensures var r := Dequeue(pq, get, del);
      var p := SelectLevel(pq);
      var l := pq.levels[p];
      && l.head < l.tail
      && r.item == Some(PriorityItem(l.head + 1, p, GenerateKey(p, l.head + 1), pq.db[GenerateKey(p, l.head + 1)]))
      && r.pq == pq.(curLevel := p, levels := pq.levels[p := l.(head := l.head + 1)],
                     db := pq.db - {GenerateKey(p, l.head + 1)})
  {
    var p := SelectLevel(pq);
    var l := pq.levels[p];
    assert l.head < l.tail;
    assert Add64(l.head, 1) == l.head + 1;
  }

  /** Every failure of Dequeue other than Empty still hands back the item at
      head+1 of the selected level: with an empty value when the read failed,
      with the stored value when only the delete failed. */
  lemma DequeueFailureKeepsItem(pq: PQ, get: Fault, del: Fault)
    requires Ordered(pq.levels)
    requires Dequeue(pq, get, del).err.Some? && Dequeue(pq, get, del).err != Some(Empty)
    ensures var r := Dequeue(pq, get, del);
      var p := SelectLevel(pq);
      var l := pq.levels[p];
      var key := GenerateKey(p, l.head + 1);
      && l.head < l.tail
      && r.item.Some? && r.item.value.id == l.head + 1 && r.item.value.priority == p && r.item.value.key == key
      && (pq.isOpen && get.Succeeds? && key in pq.db ==>
            r.err == Some(Io(del.code)) && r.item.value.value == pq.db[key])
      && (!(pq.isOpen && get.Succeeds? && key in pq.db) ==> r.item.value.value == [])
  {
    var p := SelectLevel(pq);
    var l := pq.levels[p];
    assert l.head < l.tail;
    assert Add64(l.head, 1) == l.head + 1;
  }

  /** Which error such a failure is: the store's own, unchanged. */
  lemma DequeueFailureReports(pq: PQ, get: Fault, del: Fault)
    requires Ordered(pq.levels)
    requires Dequeue(pq, get, del).err.Some? && Dequeue(pq, get, del).err != Some(Empty)
    ensures var r := Dequeue(pq, get, del);
      var p := SelectLevel(pq);
      var key := GenerateKey(p, pq.levels[p].head + 1);
      && (!pq.isOpen ==> r.err == Some(StoreClosed))
      && (pq.isOpen && get.Fails? ==> r.err == Some(Io(get.code)))
      && (pq.isOpen && get.Succeeds? && key !in pq.db ==> r.err == Some(NotFound))
      && (pq.isOpen && get.Succeeds? && key in pq.db ==> r.err == Some(Io(del.code)))
  {
    var p := SelectLevel(pq);
    var l := pq.levels[p];
    assert l.head < l.tail;
    assert Add64(l.head, 1) == l.head + 1;
  }

  /** A successful Dequeue serves the most important level with items. */
  lemma DequeueServesBest(pq: PQ, get: Fault, del: Fault)
    requires Valid(pq) && Dequeue(pq, get, del).err.None?
    ensures var r := Dequeue(pq, get, del);
      && r.item.value.priority == r.pq.curLevel
      && IsBest(pq.order, pq.levels, r.item.value.priority)
  {
    DequeueSucceeds(pq, get, del);
    SelectLevelIsBest(pq);
  }

  /** A successful Dequeue takes the oldest item of the level it serves and
      removes exactly that item from the queue's contents. */
  lemma DequeueTakesOldest(pq: PQ, get: Fault, del: Fault)
    requires Ordered(pq.levels) && Dequeue(pq, get, del).err.None?
    ensures var r := Dequeue(pq, get, del);
      var p := r.item.value.priority;
      && r.item.value.id == pq.levels[p].head + 1
      && r.item.value.value == Contents(pq)[p][0]
      && Contents(r.pq) == Contents(pq)[p := Contents(pq)[p][1..]]
  {
    DequeueSucceeds(pq, get, del);
    var p := SelectLevel(pq);
    var l := pq.levels[p];
    assert Contents(pq)[p] == Values(pq.db, GeneratePrefix(p), l.head, l.tail);
    ValuesAt(pq.db, GeneratePrefix(p), l.head, l.tail, 0);
    ContentsRemoveOldest(pq, p);
  }

  // ----- Enqueue -----

  /** A successful Enqueue keeps the invariant, as long as the level's tail
      has not reached the largest uint64. */
  lemma EnqueueKeepsValid(pq: PQ, priority: u8, value: Bytes, put: Fault)
    requires Valid(pq) && pq.levels[priority].tail < MAX64
    ensures Valid(Enqueue(pq, priority, value, put).pq)
  {
    var r := Enqueue(pq, priority, value, put);
    if r.err.None? {
      var l := pq.levels[priority];
      assert Add64(l.tail, 1) == l.tail + 1;
      StoredAppend(pq.db, pq.levels, priority, value);
      assert Stored(r.pq.db, r.pq.levels);
      forall q: u8 | MoreImportant(pq.order, q, r.pq.curLevel)
        ensures LevelLength(r.pq.levels[q]) == 0
      {
        assert MoreImportant(pq.order, q, pq.curLevel) && q != priority;
      }
    }
  }

  /** A successful Enqueue puts the value at the back of its level and
      changes no other level. */
  lemma EnqueueAppends(pq: PQ, priority: u8, value: Bytes, put: Fault)
    requires pq.levels[priority].head <= pq.levels[priority].tail < MAX64
    requires Enqueue(pq, priority, value, put).err.None?
    ensures var r := Enqueue(pq, priority, value, put);
      && r.item.id == pq.levels[priority].tail + 1
      && Contents(r.pq) == Contents(pq)[priority := Contents(pq)[priority] + [value]]
  {
    var r := Enqueue(pq, priority, value, put);
    var l := pq.levels[priority];
    assert Add64(l.tail, 1) == l.tail + 1;
    ContentsAppend(pq, priority, value);
    assert Contents(r.pq) == Contents(pq.(levels := pq.levels[priority := l.(tail := l.tail + 1)], db := pq.db[GenerateKey(priority, l.tail + 1) := value]));
  }

  /** An item enqueued into a more important level than curLevel is the one
      the next Dequeue serves from. */
  lemma EnqueueThenDequeue(pq: PQ, priority: u8, value: Bytes, put: Fault, get: Fault, del: Fault)
    requires Valid(pq) && pq.levels[priority].tail < MAX64
    requires Enqueue(pq, priority, value, put).err.None? && MoreImportant(pq.order, priority, pq.curLevel)
    ensures var r := Dequeue(Enqueue(pq, priority, value, put).pq, get, del);
      r.err.None? ==> r.item.value.priority == priority && r.item.value.value == value
  {
    var e := Enqueue(pq, priority, value, put);
    EnqueueKeepsValid(pq, priority, value, put);
    var l := pq.levels[priority];
    assert LevelLength(l) == 0;
    assert e.pq.levels[priority] == Level(l.head, l.head + 1);
    assert LevelLength(e.pq.levels[priority]) == 1;
    var r := Dequeue(e.pq, get, del);
    if r.err.None? {
      DequeueTakesOldest(e.pq, get, del);
      EnqueueAppends(pq, priority, value, put);
      assert |Contents(pq)[priority]| == 0;
    }
  }

  // ----- Length -----

  /** The exact number of items in levels 0..n-1, without wrap-around. */
  function Total(levels: Levels, n: nat): nat
    requires n <= 256
  {
    if n == 0 then 0 else Total(levels, n - 1) + LevelLength(levels[n - 1])
  }

  lemma ModAdd(a: int, b: int)
    ensures (a % TWO64 + b) % TWO64 == (a + b) % TWO64
  {
    var q := a / TWO64;
    assert a == q * TWO64 + a % TWO64;
    assert a + b == (a % TWO64 + b) + q * TWO64;
  }

  /** Changing one level changes the total by the change in that level's
      length. */
  lemma {:induction false} TotalUpdate(levels: Levels, p: u8, l: Level, n: nat)
    requires n <= 256
    ensures Total(levels[p := l], n) ==
      Total(levels, n) + (if (p as int) < n then LevelLength(l) - LevelLength(levels[p]) else 0)
  {
    if n > 0 {
      TotalUpdate(levels, p, l, n - 1);
    }
  }

  /** The total is zero exactly when every level among 0..n-1 is empty. */
  lemma {:induction false} TotalZero(levels: Levels, n: nat)
    requires n <= 256
    ensures Total(levels, n) == 0 <==> forall p: u8 :: (p as int) < n ==> LevelLength(levels[p]) == 0
  {
    if n > 0 {
      TotalZero(levels, n - 1);
      if Total(levels, n) == 0 {
        forall p: u8 | (p as int) < n
          ensures LevelLength(levels[p]) == 0
        {
          if p as int < n - 1 {
            assert Total(levels, n - 1) == 0;
          }
        }
      }
    }
  }

  /** Length wraps: it is zero when every level is empty, and otherwise the
      item count modulo 2^64. */
  lemma LengthCounts(pq: PQ)
    ensures Length(pq) == Total(pq.levels, 256) % TWO64
    ensures AllEmpty(pq.levels) <==> Total(pq.levels, 256) == 0
  {
    TotalZero(pq.levels, 256);
  }

  lemma ModSucc(t: int)
    ensures (t + 1) % TWO64 == Add64(t % TWO64, 1)
    ensures t >= 1 ==> (t - 1) % TWO64 == Sub64(t % TWO64, 1)
  {
    ModAdd(t, 1);
    ModAdd(t, -1);
    Wrap64(t % TWO64, 1);
  }

  /** A successful Dequeue removes one item: the total drops by one and
      Length by one, in uint64. */
  lemma LengthAfterDequeue(pq: PQ, get: Fault, del: Fault)
    requires Ordered(pq.levels) && Dequeue(pq, get, del).err.None?
    ensures Total(Dequeue(pq, get, del).pq.levels, 256) == Total(pq.levels, 256) - 1
    ensures Length(Dequeue(pq, get, del).pq) == Sub64(Length(pq), 1)
  {
    var r := Dequeue(pq, get, del);
    DequeueSucceeds(pq, get, del);
    var p := SelectLevel(pq);
    var l := pq.levels[p];
    TotalUpdate(pq.levels, p, l.(head := l.head + 1), 256);
    LengthCounts(pq);
    LengthCounts(r.pq);
    ModSucc(Total(pq.levels, 256));
  }

  /** A successful Enqueue adds one item: the total grows by one and Length
      by one, in uint64. */
  lemma LengthAfterEnqueue(pq: PQ, priority: u8, value: Bytes, put: Fault)
    requires pq.levels[priority].head <= pq.levels[priority].tail < MAX64
    requires Enqueue(pq, priority, value, put).err.None?
    ensures Total(Enqueue(pq, priority, value, put).pq.levels, 256) == Total(pq.levels, 256) + 1
    ensures Length(Enqueue(pq, priority, value, put).pq) == Add64(Length(pq), 1)
  {
    var r := Enqueue(pq, priority, value, put);
    var l := pq.levels[priority];
    assert Add64(l.tail, 1) == l.tail + 1;
    TotalUpdate(pq.levels, priority, l.(tail := l.tail + 1), 256);
    LengthCounts(pq);
    LengthCounts(r.pq);
    ModSucc(Total(pq.levels, 256));
  }

  // ----- Close -----

  /** Close keeps the counters, so Length still reports the items, but the
      closed store refuses every later write and read. */
  lemma CloseThenUse(pq: PQ, priority: u8, value: Bytes, put: Fault, get: Fault, del: Fault)
    requires Valid(pq)
    ensures Close(Close(pq)) == Close(pq)
    ensures Length(Close(pq)) == Length(pq) && Contents(Close(pq)) == Contents(pq)
    ensures Enqueue(Close(pq), priority, value, put).err == Some(StoreClosed)
    ensures Dequeue(Close(pq), get, del).err == Some(if AllEmpty(pq.levels) then Empty else StoreClosed)
  {
    var c := Close(pq);
    assert Valid(c);
    SelectLevelIsBest(c);
    var p := SelectLevel(c);
    assert Contents(c) == Contents(pq) by {
      forall q: u8 ensures LevelContents(c, q) == LevelContents(pq, q) { }
    }
    if !AllEmpty(pq.levels) {
      assert Add64(c.levels[p].head, 1) == c.levels[p].head + 1;
    }
  }

  // ----- Open -----

  /** What init rebuilds for one level from a listing of its window: the
      same window when it holds items, and (0, 0) when it is empty. */
  lemma RebuildLevel(levels: Levels, p: u8, keys: seq<Bytes>)
    requires levels[p].head <= levels[p].tail
    requires Lists(keys, GeneratePrefix(p), levels[p].head, levels[p].tail)
    ensures |keys| > 0 <==> LevelLength(levels[p]) > 0
    ensures |keys| > 0 ==> |keys[0]| >= 10 && |keys[|keys| - 1]| >= 10
    ensures LevelLength(levels[p]) > 0 ==> LevelFrom(keys) == levels[p]
    ensures LevelLength(levels[p]) == 0 ==> LevelFrom(keys) == Level(0, 0)
  {
    var l := levels[p];
    ListingEnds(keys, GeneratePrefix(p), l.head, l.tail);
    if l.head < l.tail {
      GenerateKeyParts(p, l.head + 1);
      GenerateKeyParts(p, l.tail);
      assert Sub64(l.head + 1, 1) == l.head;
    }
  }

  /** Each level's listing succeeded and lists exactly that level's window. */
  ghost predicate ListsLevels(levels: Levels, listings: seq<Listing>)
  {
    |listings| == 256 &&
    forall p: u8 :: listings[p].fault.Succeeds? && Lists(listings[p].keys, GeneratePrefix(p), levels[p].head, levels[p].tail)
  }

  /** The windows init rebuilds: the same ones for levels with items, (0, 0)
      for the empty ones. */
  function Restarted(levels: Levels): (r: Levels)
    ensures forall p: u8 :: LevelLength(r[p]) == LevelLength(levels[p])
  {
    seq(256, j requires 0 <= j < 256 => if LevelLength(levels[j]) > 0 then levels[j] else Level(0, 0))
  }

  /** With every level listed correctly, each listing is readable, none
      fails, and each rebuilds its level's restarted window. */
  lemma ListingsMatch(levels: Levels, listings: seq<Listing>)
    requires Ordered(levels) && ListsLevels(levels, listings)
    ensures Readable(listings)
    ensures FirstFailure(listings, 0).None?
    ensures forall j | 0 <= j < 256 :: (|listings[j].keys| > 0 <==> LevelLength(levels[j]) > 0)
    ensures forall j | 0 <= j < 256 :: LevelFrom(listings[j].keys) == Restarted(levels)[j]
  {
    forall j | 0 <= j < 256
      ensures listings[j].fault.Succeeds?
      ensures |listings[j].keys| > 0 <==> LevelLength(levels[j]) > 0
      ensures |listings[j].keys| > 0 ==> |listings[j].keys[0]| >= 10 && |listings[j].keys[|listings[j].keys| - 1]| >= 10
      ensures LevelFrom(listings[j].keys) == Restarted(levels)[j]
    {
      var p := j as u8;
      assert listings[j] == listings[p] && levels[j] == levels[p];
      RebuildLevel(levels, p, listings[p].keys);
    }
  }

  /** With every level listed correctly, init succeeds, rebuilds the
      restarted windows, and points curLevel at the most important level
      with items. */
  lemma InitRebuilds(levels: Levels, order: Order, listings: seq<Listing>)
    requires Ordered(levels) && ListsLevels(levels, listings)
    ensures Readable(listings)
    ensures Init(order, listings).Ok?
    ensures Init(order, listings).value.levels == Restarted(levels)
    ensures CurrentIsBest(order, levels, Init(order, listings).value.curLevel)
  {
    ListingsMatch(levels, listings);
    var listed: Occupancy := seq(256, j requires 0 <= j < 256 => |listings[j].keys| > 0);
    var cur := Scan(order, listed, ResetLevel(order), 0, 256);
    forall p: u8 | MoreImportant(order, p, cur)
      ensures LevelLength(levels[p]) == 0
    {
      assert !listed[p];
    }
  }

  /** Restarting the empty windows changes neither which keys are live nor
      what each level holds. */
  lemma RestartedAgrees(db: Store.DB, levels: Levels, order: Order, cur: u8)
    requires Ordered(levels) && Stored(db, levels)
    ensures Ordered(Restarted(levels)) && Stored(db, Restarted(levels))
    ensures Contents(PQ(order, Restarted(levels), cur, true, db)) == Contents(PQ(order, levels, cur, true, db))
  {
    var built := Restarted(levels);
    forall k
      ensures LiveKey(built, k) <==> LiveKey(levels, k)
    {
      if |k| == 10 {
        var l, m := built[k[0]], levels[k[0]];
        if LevelLength(m) == 0 {
          assert !InRange(GeneratePrefix(k[0]), k, l.head, l.tail);
          assert !InRange(GeneratePrefix(k[0]), k, m.head, m.tail);
        }
      }
    }
    forall p: u8
      ensures LevelContents(PQ(order, built, cur, true, db), p) == LevelContents(PQ(order, levels, cur, true, db), p)
    {
    }
  }

  /** Opening a store whose keys are exactly the live keys of some windows
      rebuilds a valid queue with the same contents: every level with items
      gets its window back, empty levels restart at (0, 0), and curLevel is
      the most important level with items. */
  lemma OpenRebuilds(db: Store.DB, levels: Levels, order: Order, listings: seq<Listing>)
    requires Ordered(levels) && Stored(db, levels) && ListsLevels(levels, listings)
    ensures Readable(listings)
    ensures Open(db, Succeeds, order, listings).Ok?
    ensures Valid(Open(db, Succeeds, order, listings).value)
    ensures var q := Open(db, Succeeds, order, listings).value;
      Contents(q) == Contents(PQ(order, levels, q.curLevel, true, db))
    ensures Open(db, Succeeds, order, listings).value.levels == Restarted(levels)
  {
    InitRebuilds(levels, order, listings);
    var r := Open(db, Succeeds, order, listings);
    RestartedAgrees(db, levels, order, r.value.curLevel);
  }
}

=== FILE: queue.dfy ===
/** The FIFO queue of queue.go: a (head, tail, isOpen) triple over the store.
    Live IDs are head < id <= tail; Enqueue writes at tail+1 and Dequeue
    removes head+1. */
module Queues {
  import opened Results
  import opened Codec
  import opened Keyspace
  import Store

  datatype Queue = Queue(head: u64, tail: u64, isOpen: bool, db: Store.DB)

  /** The queue after an operation, and what the operation returned. */
  datatype Step = Step(q: Queue, out: Result<Item>)

  function Length(q: Queue): (len: u64)
    ensures Add64(q.head, len) == q.tail
    ensures q.head <= q.tail ==> len == q.tail - q.head
  {
    Sub64(q.tail, q.head)
  }

  /** What every operation keeps: an open queue's store holds exactly the keys
      of the IDs in (head, tail]; a closed queue has both counters at zero. */
  ghost predicate Valid(q: Queue)
  {
    if q.isOpen then q.head <= q.tail && Exactly(q.db, q.head, q.tail)
    else q.head == 0 && q.tail == 0
  }

  /** The queue as its callers see it: the stored values, oldest first. */
  function Contents(q: Queue): seq<Bytes>
  {
    Values(q.db, [], q.head, q.tail)
  }

  /** getItemByID: emptiness is checked before bounds, then the key is read. */
  function GetItemByID(q: Queue, id: u64, get: Fault): (r: Result<Item>)
    ensures Length(q) == 0 ==> r == Err(Empty)
    ensures Length(q) != 0 ==> (r == Err(OutOfBounds) <==> id <= q.head || id > q.tail)
    ensures r.Ok? ==> r.value.id == id && r.value.key == IdToKey(id)
    ensures r.Ok? ==> IdToKey(id) in q.db && r.value.value == q.db[IdToKey(id)]
    ensures Length(q) != 0 && q.head < id <= q.tail ==>
      && (!q.isOpen ==> r == Err(StoreClosed))
      && (q.isOpen && get.Fails? ==> r == Err(Io(get.code)))
      && (q.isOpen && get.Succeeds? && IdToKey(id) !in q.db ==> r == Err(NotFound))
  {
    if Length(q) == 0 then Err(Empty)
    else if id <= q.head || id > q.tail then Err(OutOfBounds)
    else
      var key := IdToKey(id);
      match Store.Get(q.db, q.isOpen, key, get)
      case Err(e) => Err(e)
      case Ok(v) => Ok(Item(id, key, v))
  }

  /** Enqueue: the new item gets ID tail+1; the counter moves only after the
      write succeeded. */
  function Enqueue(q: Queue, value: Bytes, put: Fault): (r: Step)
    ensures !q.isOpen ==> r == Step(q, Err(DBClosed))
    ensures r.out.Ok? <==> q.isOpen && put.Succeeds?
    ensures q.isOpen && put.Fails? ==> r.out == Err(Io(put.code))
    ensures r.out.Err? ==> r.q == q
    ensures r.out.Ok? ==>
      var id := Add64(q.tail, 1);
      && r.out.value == Item(id, IdToKey(id), value)
      && r.q == q.(tail := id, db := q.db[IdToKey(id) := value])
  {
    if !q.isOpen then Step(q, Err(DBClosed))
    else
      var id := Add64(q.tail, 1);
      var item := Item(id, IdToKey(id), value);
      match Store.Put(q.db, q.isOpen, item.key, value, put)
      case Err(e) => Step(q, Err(e))
      case Ok(db) => Step(q.(tail := id, db := db), Ok(item))
  }

  /** Dequeue: reads head+1, deletes it, then moves head. A failed read or
      delete returns no item and leaves the queue as it was. */
  function Dequeue(q: Queue, get: Fault, del: Fault): (r: Step)
    ensures !q.isOpen ==> r == Step(q, Err(DBClosed))
    ensures q.isOpen && Length(q) == 0 ==> r == Step(q, Err(Empty))
    ensures q.isOpen && GetItemByID(q, Add64(q.head, 1), get).Err? ==> r.out == GetItemByID(q, Add64(q.head, 1), get)
    ensures q.isOpen && GetItemByID(q, Add64(q.head, 1), get).Ok? && del.Fails? ==> r.out == Err(Io(del.code))
    ensures r.out.Err? ==> r.q == q
    ensures r.out.Ok? ==>
      var id := Add64(q.head, 1);
      && r.out.value.id == id
      && r.out.value.key == IdToKey(id)
      && r.q == q.(head := id, db := q.db - {IdToKey(id)})
  {
    if !q.isOpen then Step(q, Err(DBClosed))
    else
      match GetItemByID(q, Add64(q.head, 1), get)
      case Err(e) => Step(q, Err(e))
      case Ok(item) =>
        match Store.Delete(q.db, q.isOpen, item.key, del)
        case Err(e) => Step(q, Err(e))
        case Ok(db) => Step(q.(head := item.id, db := db), Ok(item))
  }

  /** Peek: the item Dequeue would return, without removing it. */
  function Peek(q: Queue, get: Fault): (r: Result<Item>)
    ensures !q.isOpen ==> r == Err(DBClosed)
    ensures q.isOpen ==> r == GetItemByID(q, Add64(q.head, 1), get)
  {
    if !q.isOpen then Err(DBClosed) else GetItemByID(q, Add64(q.head, 1), get)
  }

  /** PeekByOffset: the item at head + offset + 1, computed in uint64. */
  function PeekByOffset(q: Queue, offset: u64, get: Fault): (r: Result<Item>)
    ensures !q.isOpen ==> r == Err(DBClosed)
    ensures r.Ok? ==> r.value.id == Add64(Add64(q.head, offset), 1)
    ensures q.isOpen ==> r == GetItemByID(q, Add64(Add64(q.head, offset), 1), get)
  {
    if !q.isOpen then Err(DBClosed) else GetItemByID(q, Add64(Add64(q.head, offset), 1), get)
  }

  function PeekByID(q: Queue, id: u64, get: Fault): (r: Result<Item>)
    ensures !q.isOpen ==> r == Err(DBClosed)
    ensures q.isOpen ==> r == GetItemByID(q, id, get)
  {
    if !q.isOpen then Err(DBClosed) else GetItemByID(q, id, get)
  }

  /** Update: overwrites a live ID's value in place. Only the bounds are
      checked; an empty queue is reported as out of bounds, not as empty. */
  function Update(q: Queue, id: u64, value: Bytes, put: Fault): (r: Step)
    ensures !q.isOpen ==> r == Step(q, Err(DBClosed))
    ensures q.isOpen ==> (r.out == Err(OutOfBounds) <==> id <= q.head || id > q.tail)
    ensures r.out.Ok? <==> q.isOpen && q.head < id <= q.tail && put.Succeeds?
    ensures q.isOpen && q.head < id <= q.tail && put.Fails? ==> r.out == Err(Io(put.code))
    ensures r.out.Err? ==> r.q == q
    ensures r.out.Ok? ==>
      && r.out.value == Item(id, IdToKey(id), value)
      && r.q == q.(db := q.db[IdToKey(id) := value])
  {
    if !q.isOpen then Step(q, Err(DBClosed))
    else if id <= q.head || id > q.tail then Step(q, Err(OutOfBounds))
    else
      var item := Item(id, IdToKey(id), value);
      match Store.Put(q.db, q.isOpen, item.key, value, put)
      case Err(e) => Step(q, Err(e))
      case Ok(db) => Step(q.(db := db), Ok(item))
  }

  /** Close: a no-op on a closed queue; otherwise, once the store handle has
      closed, both counters are reset. Stored items stay on disk. */
  function Close(q: Queue, close: Fault): (r: Status<Queue>)
    ensures !q.isOpen ==> r == Status(q, None)
    ensures r.err.Some? ==> r.state == q
    ensures q.isOpen && close.Succeeds? ==>
      r == Status(q.(head := 0, tail := 0, isOpen := false), None)
    ensures q.isOpen && close.Fails? ==> r == Status(q, Some(Io(close.code)))
  {
    if !q.isOpen then Status(q, None)
    else if close.Fails? then Status(q, Some(Io(close.code)))
    else Status(q.(head := 0, tail := 0, isOpen := false), None)
  }

  /** init: head is the first stored ID minus one and tail the last stored ID,
      as an ordered iterator over `keys` reports them; a failing iterator
      leaves both counters alone and reports its error. */
  function Init(q: Queue, keys: seq<Bytes>, iter: Fault): (r: Status<Queue>)
    requires |keys| > 0 ==> |keys[0]| >= 8 && |keys[|keys| - 1]| >= 8
    ensures r.state.isOpen == q.isOpen && r.state.db == q.db
    ensures r.err.Some? <==> iter.Fails?
    ensures iter.Fails? ==> r.err == Some(Io(iter.code))
    ensures iter.Succeeds? && |keys| > 0 ==>
      && Add64(r.state.head, 1) == KeyToId(keys[0])
      && r.state.tail == KeyToId(keys[|keys| - 1])
    ensures iter.Fails? || |keys| == 0 ==> r.state == q
  {
    if iter.Fails? then Status(q, Some(Io(iter.code)))
    else if |keys| == 0 then Status(q, None)
    else Status(q.(head := Sub64(KeyToId(keys[0]), 1), tail := KeyToId(keys[|keys| - 1])), None)
  }

  /** openQueue: open the store, check the directory's type marker, mark the
      queue open, then rebuild the counters with init. */
  function Open(db: Store.DB, open: Fault, marker: Store.TypeCheck, keys: seq<Bytes>, iter: Fault): (r: Status<Queue>)
    requires |keys| > 0 ==> |keys[0]| >= 8 && |keys[|keys| - 1]| >= 8
    ensures open.Fails? ==> r.err == Some(Io(open.code)) && !r.state.isOpen
    ensures open.Succeeds? && marker.Mismatch? ==> r.err == Some(IncompatibleType) && !r.state.isOpen
    ensures open.Succeeds? && marker.CheckFails? ==> r.err == Some(Io(marker.code)) && !r.state.isOpen
    ensures r.state.isOpen <==> open.Succeeds? && marker.Matches?
    ensures open.Succeeds? && marker.Matches? ==> r == Init(Queue(0, 0, true, db), keys, iter)
  {
    var initial := Queue(0, 0, false, db);
    if open.Fails? then Status(initial, Some(Io(open.code)))
    else match marker
      case CheckFails(c) => Status(initial, Some(Io(c)))
      case Mismatch => Status(initial, Some(IncompatibleType))
      case Matches => Init(initial.(isOpen := true), keys, iter)
  }

  // ----- Properties -----

  /** A valid queue's store holds exactly {idToKey(i) | head < i <= tail}, and
      Length counts its entries. */
  lemma StoredKeys(q: Queue)
    requires Valid(q) && q.isOpen
    ensures q.db.Keys == set i: u64 | q.head < i <= q.tail :: IdToKey(i)
    ensures |q.db| == Length(q)
  {
    forall k | k in q.db
      ensures exists i: u64 :: q.head < i <= q.tail && k == IdToKey(i)
    {
      InRangeIsKeyFor([], k, q.head, q.tail);
      EmptyPrefix(KeyToId(k[0..]));
    }
    forall i: u64 | q.head < i <= q.tail
      ensures IdToKey(i) in q.db
    {
      KeyForInRange([], i, q.head, q.tail);
      EmptyPrefix(i);
    }
    CountKeys(q.db, q.head, q.tail);
  }

  /** On a valid queue the key of every live ID is stored. */
  lemma LiveKeyStored(q: Queue, id: u64)
    requires Valid(q) && q.isOpen && q.head < id <= q.tail
    ensures IdToKey(id) in q.db
  {
    KeyForInRange([], id, q.head, q.tail);
    EmptyPrefix(id);
  }

  /** Position id - head - 1 of Contents is the value stored under id. */
  lemma ContentsAt(q: Queue, id: u64)
    requires q.head < id <= q.tail
    ensures Contents(q)[id - q.head - 1] == ValueAt(q.db, [], id)
  {
    ValuesAt(q.db, [], q.head, q.tail, id - q.head - 1);
  }

  /** On a valid queue every live ID is readable unless the read fails, and
      reading it yields its position in Contents. */
  lemma GetItemByIDReadsContents(q: Queue, id: u64, get: Fault)
    requires Valid(q) && q.isOpen && q.head < id <= q.tail
    ensures GetItemByID(q, id, get).Ok? <==> get.Succeeds?
    ensures GetItemByID(q, id, get).Ok? ==> GetItemByID(q, id, get).value.value == Contents(q)[id - q.head - 1]
  {
    LiveKeyStored(q, id);
    ContentsAt(q, id);
    EmptyPrefix(id);
  }

  /** Storing the value under tail+1 and moving tail keeps the invariant. */
  lemma AppendKeepsValid(q: Queue, value: Bytes)
    requires Valid(q) && q.isOpen && q.tail < MAX64
    ensures Valid(q.(tail := q.tail + 1, db := q.db[IdToKey(q.tail + 1) := value]))
  {
    EmptyPrefix(q.tail + 1);
    ExactlyGrowHigh(q.db, q.head, q.tail, value);
  }

  /** Storing the value under tail+1 and moving tail appends it at the back. */
  lemma AppendAtBack(q: Queue, value: Bytes)
    requires q.head <= q.tail < MAX64
    ensures Contents(q.(tail := q.tail + 1, db := q.db[IdToKey(q.tail + 1) := value]))
         == Contents(q) + [value]
  {
    EmptyPrefix(q.tail + 1);
    ValuesAppend(q.db, [], q.head, q.tail, value);
  }

  /** Enqueue appends the value at the back and keeps the invariant (as long
      as tail has not reached the largest uint64). */
  lemma EnqueueAppends(q: Queue, value: Bytes, put: Fault)
    requires Valid(q) && q.tail < MAX64
    ensures var r := Enqueue(q, value, put);
      && Valid(r.q)
      && (r.out.Ok? ==> Contents(r.q) == Contents(q) + [value] && Length(r.q) == Length(q) + 1)
  {
    if q.isOpen {
      AppendKeepsValid(q, value);
      AppendAtBack(q, value);
    }
  }

  /** Deleting the key of head+1 and moving head keeps the invariant. */
  lemma RemoveOldestKeepsValid(q: Queue)
    requires Valid(q) && q.isOpen && q.head < q.tail
    ensures Valid(q.(head := q.head + 1, db := q.db - {IdToKey(q.head + 1)}))
  {
    EmptyPrefix(q.head + 1);
    ExactlyShrinkLow(q.db, q.head, q.tail);
  }

  /** Deleting the key of head+1 and moving head drops the oldest value. */
  lemma RemoveOldestAtFront(q: Queue)
    requires q.head < q.tail
    ensures Contents(q.(head := q.head + 1, db := q.db - {IdToKey(q.head + 1)})) == Contents(q)[1..]
  {
    EmptyPrefix(q.head + 1);
    ValuesDropFirst(q.db, [], q.head, q.tail);
  }

  /** Dequeue hands out the oldest value and leaves the rest in order; on a
      non-empty open queue it fails only when the store does. */
  lemma DequeueTakesOldest(q: Queue, get: Fault, del: Fault)
    requires Valid(q)
    ensures Valid(Dequeue(q, get, del).q)
    ensures q.isOpen && Length(q) > 0 ==> (Dequeue(q, get, del).out.Ok? <==> get.Succeeds? && del.Succeeds?)
    ensures Dequeue(q, get, del).out.Ok? ==>
      && |Contents(q)| > 0
      && Dequeue(q, get, del).out.value.value == Contents(q)[0]
    ensures Dequeue(q, get, del).out.Ok? ==>
      && Contents(Dequeue(q, get, del).q) == Contents(q)[1..]
      && Length(Dequeue(q, get, del).q) == Length(q) - 1
  {
    var r := Dequeue(q, get, del);
    if q.isOpen && Length(q) > 0 {
      var id := q.head + 1;
      assert Add64(q.head, 1) == id;
      GetItemByIDReadsContents(q, id, get);
    }
    if r.out.Ok? {
      var id := q.head + 1;
      assert r.q == q.(head := id, db := q.db - {IdToKey(id)});
      RemoveOldestKeepsValid(q);
      RemoveOldestAtFront(q);
    } else {
      assert r.q == q;
    }
  }

  /** Peek shows what Dequeue would take, without changing anything. */
  lemma PeekShowsOldest(q: Queue, get: Fault)
    requires Valid(q) && q.isOpen
    ensures Length(q) == 0 ==> Peek(q, get) == Err(Empty)
    ensures Length(q) > 0 ==> (Peek(q, get).Ok? <==> get.Succeeds?)
    ensures Peek(q, get).Ok? ==> |Contents(q)| > 0 && Peek(q, get).value.value == Contents(q)[0]
  {
    if Length(q) > 0 {
      GetItemByIDReadsContents(q, q.head + 1, get);
    }
  }

  /** PeekByOffset reports Empty on an empty collection; otherwise it is in
      bounds exactly when offset < Length, even though
      head + offset + 1 can wrap around in uint64; in bounds it reads the
      value at that position. */
  lemma PeekByOffsetBounds(q: Queue, offset: u64, get: Fault)
    requires Valid(q) && q.isOpen
    ensures Length(q) == 0 ==> PeekByOffset(q, offset, get) == Err(Empty)
    ensures Length(q) > 0 ==> (PeekByOffset(q, offset, get) == Err(OutOfBounds) <==> offset >= Length(q))
    ensures 0 < Length(q) && offset < Length(q) ==>
      && (PeekByOffset(q, offset, get).Ok? <==> get.Succeeds?)
      && (PeekByOffset(q, offset, get).Ok? ==>
            PeekByOffset(q, offset, get).value.id == q.head + offset + 1
            && PeekByOffset(q, offset, get).value.value == Contents(q)[offset])
  {
    var id := Add64(Add64(q.head, offset), 1);
    if Length(q) == 0 {
    } else if offset < Length(q) {
      assert id == q.head + offset + 1;
      GetItemByIDReadsContents(q, id, get);
    } else if q.head + offset + 1 < TWO64 {
      assert id > q.tail;
    } else {
      assert id <= q.head;
    }
  }

  /** Update replaces one value in place and keeps the invariant. */
  lemma UpdateOverwrites(q: Queue, id: u64, value: Bytes, put: Fault)
    requires Valid(q)
    ensures var r := Update(q, id, value, put);
      && Valid(r.q)
      && r.q.head == q.head && r.q.tail == q.tail
      && (r.out.Ok? ==> Contents(r.q) == Contents(q)[id - q.head - 1 := value])
  {
    var r := Update(q, id, value, put);
    if r.out.Ok? {
      EmptyPrefix(id);
      ExactlyOverwrite(q.db, q.head, q.tail, id, value);
      ValuesPutInside(q.db, [], q.head, q.tail, id, value);
    }
  }

  /** After a Dequeue the ID just handed out is rejected by Update, while the
      next one is still accepted. */
  lemma UpdateAfterDequeue(q: Queue, get: Fault, del: Fault, value: Bytes)
    requires Valid(q)
    requires Dequeue(q, get, del).out.Ok?
    ensures var r := Dequeue(q, get, del);
      && Update(r.q, r.out.value.id, value, Succeeds).out == Err(OutOfBounds)
      && (Length(r.q) > 0 ==> Update(r.q, r.out.value.id + 1, value, Succeeds).out.Ok?)
  {
    DequeueTakesOldest(q, get, del);
  }

  /** Close resets the counters, after which Length is 0 and every access
      reports DBClosed; closing again changes nothing. */
  lemma CloseThenUse(q: Queue, close: Fault, again: Fault, get: Fault, del: Fault, value: Bytes, put: Fault)
    requires Valid(q) && close.Succeeds?
    ensures var c := Close(q, close).state;
      && Valid(c)
      && Length(c) == 0
      && Contents(c) == []
      && Dequeue(c, get, del) == Step(c, Err(DBClosed))
      && Enqueue(c, value, put) == Step(c, Err(DBClosed))
      && Close(c, again) == Status(c, None)
  {
  }

  /** Opening a store that holds the keys of (lo, hi] rebuilds a valid queue
      with the same contents, so Close followed by a reopen loses nothing. */
  lemma OpenRebuilds(db: Store.DB, lo: u64, hi: u64, keys: seq<Bytes>)
    requires lo <= hi && Exactly(db, lo, hi) && Lists(keys, [], lo, hi)
    ensures |keys| > 0 ==> |keys[0]| >= 8 && |keys[|keys| - 1]| >= 8
    ensures var r := Open(db, Succeeds, Store.Matches, keys, Succeeds);
      && r.err == None
      && r.state.isOpen
      && Valid(r.state)
      && Length(r.state) == hi - lo
      && Contents(r.state) == Values(db, [], lo, hi)
      && (lo < hi ==> r.state.head == lo && r.state.tail == hi)
  {
    ListingEnds(keys, [], lo, hi);
    if lo < hi {
      EmptyPrefix(lo + 1);
      EmptyPrefix(hi);
      KeyToIdOfIdToKey(lo + 1);
      KeyToIdOfIdToKey(hi);
    } else {
      ExactlyEmpty(db, lo);
      assert Exactly(db, 0, 0);
    }
  }
}

=== FILE: results.dfy ===
/** Error kinds, optional values and the outcome of a call into the store.
    Every error the collections can report is one constructor of `Error`. */
module Results {

  /** The error kinds of the library and of the store underneath it. */
  datatype Error =
    | Empty               // the (sub-)sequence holds no item
    | OutOfBounds         // the ID or offset lies outside (head, tail]
    | DBClosed            // the collection was closed
    | IncompatibleType    // the directory belongs to another collection type
    | NotFound            // the store has no value under the key
    | StoreClosed         // the store handle itself has been closed
    | Io(code: nat)       // any other failure the store reports, passed through

  datatype Option<+T> = None | Some(value: T)

  datatype Result<+T> = Ok(value: T) | Err(error: Error)

  /** What the environment decides about one store call: it goes through, or
      the store reports a failure. This is the model's only nondeterminism. */
  datatype Fault = Succeeds | Fails(code: nat)

  /** A state together with the error an operation returned, if any. */
  datatype Status<S> = Status(state: S, err: Option<Error>)
}

=== FILE: stack.dfy ===
/** The LIFO stack of stack.go: the same store layout as the queue, read from
    the other end. Live IDs are tail < id <= head; Push writes at head+1 and
    Pop removes head. */
module Stacks {
  import opened Results
  import opened Codec
  import opened Keyspace
  import Store

  datatype Stack = Stack(head: u64, tail: u64, isOpen: bool, db: Store.DB)

  /** The stack after an operation, and what the operation returned. */
  datatype Step = Step(s: Stack, out: Result<Item>)

  function Length(s: Stack): (len: u64)
    ensures Add64(s.tail, len) == s.head
    ensures s.tail <= s.head ==> len == s.head - s.tail
  {
    Sub64(s.head, s.tail)
  }

  /** What every operation keeps: an open stack's store holds exactly the keys
      of the IDs in (tail, head]; a closed stack has both counters at zero. */
  ghost predicate Valid(s: Stack)
  {
    if s.isOpen then s.tail <= s.head && Exactly(s.db, s.tail, s.head)
    else s.head == 0 && s.tail == 0
  }

  /** The stack as its callers see it: the stored values, bottom first, so
      the top of the stack is the last element. */
  function Contents(s: Stack): seq<Bytes>
  {
    Values(s.db, [], s.tail, s.head)
  }

  /** getItemByID: emptiness is checked before bounds, then the key is read. */
  function GetItemByID(s: Stack, id: u64, get: Fault): (r: Result<Item>)
    ensures Length(s) == 0 ==> r == Err(Empty)
    ensures Length(s) != 0 ==> (r == Err(OutOfBounds) <==> id <= s.tail || id > s.head)
    ensures r.Ok? ==> r.value.id == id && r.value.key == IdToKey(id)
    ensures r.Ok? ==> IdToKey(id) in s.db && r.value.value == s.db[IdToKey(id)]
    ensures Length(s) != 0 && s.tail < id <= s.head ==>
      && (!s.isOpen ==> r == Err(StoreClosed))
      && (s.isOpen && get.Fails? ==> r == Err(Io(get.code)))
      && (s.isOpen && get.Succeeds? && IdToKey(id) !in s.db ==> r == Err(NotFound))
  {
    if Length(s) == 0 then Err(Empty)
    else if id <= s.tail || id > s.head then Err(OutOfBounds)
    else
      var key := IdToKey(id);
      match Store.Get(s.db, s.isOpen, key, get)
      case Err(e) => Err(e)
      case Ok(v) => Ok(Item(id, key, v))
  }

  /** Push: the new item gets ID head+1; the counter moves only after the
      write succeeded. */
  function Push(s: Stack, value: Bytes, put: Fault): (r: Step)
    ensures !s.isOpen ==> r == Step(s, Err(DBClosed))
    ensures r.out.Ok? <==> s.isOpen && put.Succeeds?
    ensures s.isOpen && put.Fails? ==> r.out == Err(Io(put.code))
    ensures r.out.Err? ==> r.s == s
    ensures r.out.Ok? ==>
      var id := Add64(s.head, 1);
      && r.out.value == Item(id, IdToKey(id), value)
      && r.s == s.(head := id, db := s.db[IdToKey(id) := value])
  {
    if !s.isOpen then Step(s, Err(DBClosed))
    else
      var id := Add64(s.head, 1);
      var item := Item(id, IdToKey(id), value);
      match Store.Put(s.db, s.isOpen, item.key, value, put)
      case Err(e) => Step(s, Err(e))
      case Ok(db) => Step(s.(head := id, db := db), Ok(item))
  }

  /** Pop: reads head, deletes it, then moves head down. A failed read or
      delete returns no item and leaves the stack as it was. */
  function Pop(s: Stack, get: Fault, del: Fault): (r: Step)
    ensures !s.isOpen ==> r == Step(s, Err(DBClosed))
    ensures s.isOpen && Length(s) == 0 ==> r == Step(s, Err(Empty))
    ensures s.isOpen && GetItemByID(s, s.head, get).Err? ==> r.out == GetItemByID(s, s.head, get)
    ensures s.isOpen && GetItemByID(s, s.head, get).Ok? && del.Fails? ==> r.out == Err(Io(del.code))
    ensures r.out.Err? ==> r.s == s
    ensures r.out.Ok? ==>
      && r.out.value.id == s.head
      && r.out.value.key == IdToKey(s.head)
      && r.s == s.(head := Sub64(s.head, 1), db := s.db - {IdToKey(s.head)})
  {
    if !s.isOpen then Step(s, Err(DBClosed))
    else
      match GetItemByID(s, s.head, get)
      case Err(e) => Step(s, Err(e))
      case Ok(item) =>
        match Store.Delete(s.db, s.isOpen, item.key, del)
        case Err(e) => Step(s, Err(e))
        case Ok(db) => Step(s.(head := Sub64(s.head, 1), db := db), Ok(item))
  }

  /** Peek: the item Pop would return, without removing it. */
  function Peek(s: Stack, get: Fault): (r: Result<Item>)
    ensures !s.isOpen ==> r == Err(DBClosed)
    ensures s.isOpen ==> r == GetItemByID(s, s.head, get)
  {
    if !s.isOpen then Err(DBClosed) else GetItemByID(s, s.head, get)
  }

  /** PeekByOffset: the item at head - offset, computed in uint64. */
  function PeekByOffset(s: Stack, offset: u64, get: Fault): (r: Result<Item>)
    ensures !s.isOpen ==> r == Err(DBClosed)
    ensures r.Ok? ==> r.value.id == Sub64(s.head, offset)
    ensures s.isOpen ==> r == GetItemByID(s, Sub64(s.head, offset), get)
  {
    if !s.isOpen then Err(DBClosed) else GetItemByID(s, Sub64(s.head, offset), get)
  }

  function PeekByID(s: Stack, id: u64, get: Fault): (r: Result<Item>)
    ensures !s.isOpen ==> r == Err(DBClosed)
    ensures s.isOpen ==> r == GetItemByID(s, id, get)
  {
    if !s.isOpen then Err(DBClosed) else GetItemByID(s, id, get)
  }

  /** Update: overwrites a live ID's value in place. Only the bounds are
      checked; an empty stack is reported as out of bounds, not as empty. */
  function Update(s: Stack, id: u64, value: Bytes, put: Fault): (r: Step)
    ensures !s.isOpen ==> r == Step(s, Err(DBClosed))
    ensures s.isOpen ==> (r.out == Err(OutOfBounds) <==> id > s.head || id <= s.tail)
    ensures r.out.Ok? <==> s.isOpen && s.tail < id <= s.head && put.Succeeds?
    ensures s.isOpen && s.tail < id <= s.head && put.Fails? ==> r.out == Err(Io(put.code))
    ensures r.out.Err? ==> r.s == s
    ensures r.out.Ok? ==>
      && r.out.value == Item(id, IdToKey(id), value)
      && r.s == s.(db := s.db[IdToKey(id) := value])
  {
    if !s.isOpen then Step(s, Err(DBClosed))
    else if id > s.head || id <= s.tail then Step(s, Err(OutOfBounds))
    else
      var item := Item(id, IdToKey(id), value);
      match Store.Put(s.db, s.isOpen, item.key, value, put)
      case Err(e) => Step(s, Err(e))
      case Ok(db) => Step(s.(db := db), Ok(item))
  }

  /** Close: a no-op on a closed stack; otherwise, once the store handle has
      closed, both counters are reset. Stored items stay on disk. */
  function Close(s: Stack, close: Fault): (r: Status<Stack>)
    ensures !s.isOpen ==> r == Status(s, None)
    ensures r.err.Some? ==> r.state == s
    ensures s.isOpen && close.Succeeds? ==>
      r == Status(s.(head := 0, tail := 0, isOpen := false), None)
    ensures s.isOpen && close.Fails? ==> r == Status(s, Some(Io(close.code)))
  {
    if !s.isOpen then Status(s, None)
    else if close.Fails? then Status(s, Some(Io(close.code)))
    else Status(s.(head := 0, tail := 0, isOpen := false), None)
  }

  /** init: head is the last stored ID and tail the first stored ID minus one,
      as an ordered iterator over `keys` reports them; a failing iterator
      leaves both counters alone and reports its error. */
  function Init(s: Stack, keys: seq<Bytes>, iter: Fault): (r: Status<Stack>)
    requires |keys| > 0 ==> |keys[0]| >= 8 && |keys[|keys| - 1]| >= 8
    ensures r.state.isOpen == s.isOpen && r.state.db == s.db
    ensures r.err.Some? <==> iter.Fails?
    ensures iter.Fails? ==> r.err == Some(Io(iter.code))
    ensures iter.Succeeds? && |keys| > 0 ==>
      && r.state.head == KeyToId(keys[|keys| - 1])
      && Add64(r.state.tail, 1) == KeyToId(keys[0])
    ensures iter.Fails? || |keys| == 0 ==> r.state == s
  {
    if iter.Fails? then Status(s, Some(Io(iter.code)))
    else if |keys| == 0 then Status(s, None)
    else Status(s.(head := KeyToId(keys[|keys| - 1]), tail := Sub64(KeyToId(keys[0]), 1)), None)
  }

  /** openStack: open the store, check the directory's type marker, mark the
      stack open, then rebuild the counters with init. */
  function Open(db: Store.DB, open: Fault, marker: Store.TypeCheck, keys: seq<Bytes>, iter: Fault): (r: Status<Stack>)
    requires |keys| > 0 ==> |keys[0]| >= 8 && |keys[|keys| - 1]| >= 8
    ensures open.Fails? ==> r.err == Some(Io(open.code)) && !r.state.isOpen
    ensures open.Succeeds? && marker.Mismatch? ==> r.err == Some(IncompatibleType) && !r.state.isOpen
    ensures open.Succeeds? && marker.CheckFails? ==> r.err == Some(Io(marker.code)) && !r.state.isOpen
    ensures r.state.isOpen <==> open.Succeeds? && marker.Matches?
    ensures open.Succeeds? && marker.Matches? ==> r == Init(Stack(0, 0, true, db), keys, iter)
  {
    var initial := Stack(0, 0, false, db);
    if open.Fails? then Status(initial, Some(Io(open.code)))
    else match marker
      case CheckFails(c) => Status(initial, Some(Io(c)))
      case Mismatch => Status(initial, Some(IncompatibleType))
      case Matches => Init(initial.(isOpen := true), keys, iter)
  }

  // ----- Properties -----

  /** A valid stack's store holds exactly {idToKey(i) | tail < i <= head},
      and Length counts its entries. */
  lemma StoredKeys(s: Stack)
    requires Valid(s) && s.isOpen
    ensures s.db.Keys == set i: u64 | s.tail < i <= s.head :: IdToKey(i)
    ensures |s.db| == Length(s)
  {
    forall k | k in s.db
      ensures exists i: u64 :: s.tail < i <= s.head && k == IdToKey(i)
    {
      InRangeIsKeyFor([], k, s.tail, s.head);
      EmptyPrefix(KeyToId(k[0..]));
    }
    forall i: u64 | s.tail < i <= s.head
      ensures IdToKey(i) in s.db
    {
      KeyForInRange([], i, s.tail, s.head);
      EmptyPrefix(i);
    }
    CountKeys(s.db, s.tail, s.head);
  }

  /** On a valid stack the key of every live ID is stored. */
  lemma LiveKeyStored(s: Stack, id: u64)
    requires Valid(s) && s.isOpen && s.tail < id <= s.head
    ensures IdToKey(id) in s.db
  {
    KeyForInRange([], id, s.tail, s.head);
    EmptyPrefix(id);
  }

  /** Position id - tail - 1 of Contents is the value stored under id. */
  lemma ContentsAt(s: Stack, id: u64)
    requires s.tail < id <= s.head
    ensures Contents(s)[id - s.tail - 1] == ValueAt(s.db, [], id)
  {
    ValuesAt(s.db, [], s.tail, s.head, id - s.tail - 1);
  }

  /** On a valid stack every live ID is readable unless the read fails, and
      reading it yields its position in Contents. */
  lemma GetItemByIDReadsContents(s: Stack, id: u64, get: Fault)
    requires Valid(s) && s.isOpen && s.tail < id <= s.head
    ensures GetItemByID(s, id, get).Ok? <==> get.Succeeds?
    ensures GetItemByID(s, id, get).Ok? ==> GetItemByID(s, id, get).value.value == Contents(s)[id - s.tail - 1]
  {
    LiveKeyStored(s, id);
    ContentsAt(s, id);
    EmptyPrefix(id);
  }

  /** Storing the value under head+1 and moving head keeps the invariant. */
  lemma PushKeepsValid(s: Stack, value: Bytes)
    requires Valid(s) && s.isOpen && s.head < MAX64
    ensures Valid(s.(head := s.head + 1, db := s.db[IdToKey(s.head + 1) := value]))
  {
    EmptyPrefix(s.head + 1);
    ExactlyGrowHigh(s.db, s.tail, s.head, value);
  }

  /** Storing the value under head+1 and moving head puts it on top. */
  lemma PushOnTop(s: Stack, value: Bytes)
    requires s.tail <= s.head < MAX64
    ensures Contents(s.(head := s.head + 1, db := s.db[IdToKey(s.head + 1) := value]))
         == Contents(s) + [value]
  {
    EmptyPrefix(s.head + 1);
    ValuesAppend(s.db, [], s.tail, s.head, value);
  }

  /** Push puts the value on top and keeps the invariant (as long as head has
      not reached the largest uint64). */
  lemma PushAppends(s: Stack, value: Bytes, put: Fault)
    requires Valid(s) && s.head < MAX64
    ensures var r := Push(s, value, put);
      && Valid(r.s)
      && (r.out.Ok? ==> Contents(r.s) == Contents(s) + [value] && Length(r.s) == Length(s) + 1)
  {
    if s.isOpen {
      PushKeepsValid(s, value);
      PushOnTop(s, value);
    }
  }

  /** Deleting the key of head and moving head down keeps the invariant. */
  lemma RemoveTopKeepsValid(s: Stack)
    requires Valid(s) && s.isOpen && s.tail < s.head
    ensures Valid(s.(head := s.head - 1, db := s.db - {IdToKey(s.head)}))
  {
    EmptyPrefix(s.head);
    ExactlyShrinkHigh(s.db, s.tail, s.head);
  }

  /** Deleting the key of head and moving head down drops the top value. */
  lemma RemoveTopDropsLast(s: Stack)
    requires s.tail < s.head
    ensures Contents(s.(head := s.head - 1, db := s.db - {IdToKey(s.head)}))
         == Contents(s)[..|Contents(s)| - 1]
  {
    EmptyPrefix(s.head);
    ValuesDropLast(s.db, [], s.tail, s.head);
  }

  /** Pop hands out the newest value and leaves the rest in order; on a
      non-empty open stack it fails only when the store does. */
  lemma PopTakesNewest(s: Stack, get: Fault, del: Fault)
    requires Valid(s)
    ensures Valid(Pop(s, get, del).s)
    ensures s.isOpen && Length(s) > 0 ==> (Pop(s, get, del).out.Ok? <==> get.Succeeds? && del.Succeeds?)
    ensures Pop(s, get, del).out.Ok? ==>
      && |Contents(s)| > 0
      && Pop(s, get, del).out.value.value == Contents(s)[|Contents(s)| - 1]
    ensures Pop(s, get, del).out.Ok? ==>
      && Contents(Pop(s, get, del).s) == Contents(s)[..|Contents(s)| - 1]
      && Length(Pop(s, get, del).s) == Length(s) - 1
  {
    var r := Pop(s, get, del);
    if s.isOpen && Length(s) > 0 {
      GetItemByIDReadsContents(s, s.head, get);
    }
    if r.out.Ok? {
      assert Sub64(s.head, 1) == s.head - 1;
      assert r.s == s.(head := s.head - 1, db := s.db - {IdToKey(s.head)});
      RemoveTopKeepsValid(s);
      RemoveTopDropsLast(s);
    } else {
      assert r.s == s;
    }
  }

  /** Peek shows what Pop would take, without changing anything. */
  lemma PeekShowsNewest(s: Stack, get: Fault)
    requires Valid(s) && s.isOpen
    ensures Length(s) == 0 ==> Peek(s, get) == Err(Empty)
    ensures Length(s) > 0 ==> (Peek(s, get).Ok? <==> get.Succeeds?)
    ensures Peek(s, get).Ok? ==> |Contents(s)| > 0 && Peek(s, get).value.value == Contents(s)[|Contents(s)| - 1]
  {
    if Length(s) > 0 {
      GetItemByIDReadsContents(s, s.head, get);
    }
  }

  /** PeekByOffset reports Empty on an empty collection; otherwise it is in
      bounds exactly when offset < Length, even though
      head - offset can wrap around in uint64; in bounds it reads the value
      offset places below the top. */
  lemma PeekByOffsetBounds(s: Stack, offset: u64, get: Fault)
    requires Valid(s) && s.isOpen
    ensures Length(s) == 0 ==> PeekByOffset(s, offset, get) == Err(Empty)
    ensures Length(s) > 0 ==> (PeekByOffset(s, offset, get) == Err(OutOfBounds) <==> offset >= Length(s))
    ensures 0 < Length(s) && offset < Length(s) ==>
      && (PeekByOffset(s, offset, get).Ok? <==> get.Succeeds?)
      && (PeekByOffset(s, offset, get).Ok? ==>
            PeekByOffset(s, offset, get).value.id == s.head - offset
            && PeekByOffset(s, offset, get).value.value == Contents(s)[|Contents(s)| - 1 - offset])
  {
    var id := Sub64(s.head, offset);
    if Length(s) == 0 {
    } else if offset < Length(s) {
      assert id == s.head - offset;
      GetItemByIDReadsContents(s, id, get);
    } else if offset <= s.head {
      assert id <= s.tail;
    } else {
      assert id > s.head;
    }
  }

  /** Update replaces one value in place and keeps the invariant. */
  lemma UpdateOverwrites(s: Stack, id: u64, value: Bytes, put: Fault)
    requires Valid(s)
    ensures var r := Update(s, id, value, put);
      && Valid(r.s)
      && r.s.head == s.head && r.s.tail == s.tail
      && (r.out.Ok? ==> Contents(r.s) == Contents(s)[id - s.tail - 1 := value])
  {
    var r := Update(s, id, value, put);
    if r.out.Ok? {
      EmptyPrefix(id);
      ExactlyOverwrite(s.db, s.tail, s.head, id, value);
      ValuesPutInside(s.db, [], s.tail, s.head, id, value);
    }
  }

  /** After a Pop the ID just handed out is rejected by Update, while the one
      below it is still accepted. */
  lemma UpdateAfterPop(s: Stack, get: Fault, del: Fault, value: Bytes)
    requires Valid(s)
    requires Pop(s, get, del).out.Ok?
    ensures var r := Pop(s, get, del);
      && Update(r.s, r.out.value.id, value, Succeeds).out == Err(OutOfBounds)
      && (Length(r.s) > 0 ==> Update(r.s, r.out.value.id - 1, value, Succeeds).out.Ok?)
  {
    PopTakesNewest(s, get, del);
  }

  /** IDs are reused: a Push right after a Pop hands out the popped ID again. */
  lemma PushAfterPopReusesId(s: Stack, get: Fault, del: Fault, value: Bytes)
    requires Valid(s)
    requires Pop(s, get, del).out.Ok?
    ensures var r := Pop(s, get, del);
      Push(r.s, value, Succeeds).out == Ok(Item(r.out.value.id, IdToKey(r.out.value.id), value))
  {
    PopTakesNewest(s, get, del);
  }

  /** Close resets the counters, after which Length is 0 and every access
      reports DBClosed; closing again changes nothing. */
  lemma CloseThenUse(s: Stack, close: Fault, again: Fault, get: Fault, del: Fault, value: Bytes, put: Fault)
    requires Valid(s) && close.Succeeds?
    ensures var c := Close(s, close).state;
      && Valid(c)
      && Length(c) == 0
      && Contents(c) == []
      && Pop(c, get, del) == Step(c, Err(DBClosed))
      && Push(c, value, put) == Step(c, Err(DBClosed))
      && Close(c, again) == Status(c, None)
  {
  }

  /** Opening a store that holds the keys of (lo, hi] rebuilds a valid stack
      with the same contents, so Close followed by a reopen loses nothing. */
  lemma OpenRebuilds(db: Store.DB, lo: u64, hi: u64, keys: seq<Bytes>)
    requires lo <= hi && Exactly(db, lo, hi) && Lists(keys, [], lo, hi)
    ensures |keys| > 0 ==> |keys[0]| >= 8 && |keys[|keys| - 1]| >= 8
    ensures var r := Open(db, Succeeds, Store.Matches, keys, Succeeds);
      && r.err == None
      && r.state.isOpen
      && Valid(r.state)
      && Length(r.state) == hi - lo
      && Contents(r.state) == Values(db, [], lo, hi)
      && (lo < hi ==> r.state.tail == lo && r.state.head == hi)
  {
    ListingEnds(keys, [], lo, hi);
    if lo < hi {
      EmptyPrefix(lo + 1);
      EmptyPrefix(hi);
      KeyToIdOfIdToKey(lo + 1);
      KeyToIdOfIdToKey(hi);
    } else {
      ExactlyEmpty(db, lo);
      assert Exactly(db, 0, 0);
    }
  }
}

=== FILE: store.dfy ===
/** The sorted key-value store underneath every collection (LevelDB in
    goque), reduced to a finite map and the outcome of each call. */
module Store {
  import opened Results
  import opened Codec

  type DB = map<Bytes, Bytes>

  /** A point read. A closed handle refuses, the environment may make the call
      fail, and a key that is not stored is reported as NotFound. */
  function Get(db: DB, open: bool, key: Bytes, fault: Fault): (r: Result<Bytes>)
    ensures r.Ok? <==> open && fault.Succeeds? && key in db
    ensures r.Ok? ==> r.value == db[key]
    ensures !open ==> r == Err(StoreClosed)
    ensures open && fault.Fails? ==> r == Err(Io(fault.code))
    ensures open && fault.Succeeds? && key !in db ==> r == Err(NotFound)
  {
    if !open then Err(StoreClosed)
    else if fault.Fails? then Err(Io(fault.code))
    else if key in db then Ok(db[key])
    else Err(NotFound)
  }

  /** A durable single-key write. */
  function Put(db: DB, open: bool, key: Bytes, value: Bytes, fault: Fault): (r: Result<DB>)
    ensures r.Ok? <==> open && fault.Succeeds?
    ensures r.Ok? ==> r.value == db[key := value]
    ensures !open ==> r == Err(StoreClosed)
    ensures open && fault.Fails? ==> r == Err(Io(fault.code))
  {
    if !open then Err(StoreClosed)
    else if fault.Fails? then Err(Io(fault.code))
    else Ok(db[key := value])
  }

  /** A durable single-key delete; deleting an absent key succeeds. */
  function Delete(db: DB, open: bool, key: Bytes, fault: Fault): (r: Result<DB>)
    ensures r.Ok? <==> open && fault.Succeeds?
    ensures r.Ok? ==> r.value == db - {key}
    ensures !open ==> r == Err(StoreClosed)
    ensures open && fault.Fails? ==> r == Err(Io(fault.code))
  {
    if !open then Err(StoreClosed)
    else if fault.Fails? then Err(Io(fault.code))
    else Ok(db - {key})
  }

  /** What an iterator walks: distinct keys in ascending byte order. */
  predicate SortedStrict(keys: seq<Bytes>)
  {
    forall i, j :: 0 <= i < j < |keys| ==> LexLess(keys[i], keys[j])
  }

  /** The outcome of checking the collection-type marker of a directory when
      it is opened: it names this collection type, another one, or the check
      itself fails. */
  datatype TypeCheck = Matches | Mismatch | CheckFails(code: nat)
}
